=== FILE: README.md ===
# sci-abs-mate: a Dafny model of the abstract generator's page logic

sci-abs-mate is a single-page React front end for generating abstracts of
scientific papers. The user uploads a document or pastes text, picks a word
budget and a style, and presses "Generate Abstract". A simulated four-step
pipeline then runs: extract, analyze, summarize, finalize. Each step turns
active and then completed on a timer, and at the end a canned abstract is
shown. In the interactive ("llm") mode a chat panel follows, answering every
question with a canned reply after a delay.

This project models the logic behind that page as pure Dafny functions over
immutable datatypes, and proves properties about it:

- `Index` (src/pages/Index.tsx) holds the page session as one record. Every
  handler is one atomic update, `Apply(s, e)`. Each `setTimeout` continuation
  is an explicit event: `Tick(t)` fires the `t`-th pending step timer, and
  `Reply(id)` fires the pending chat reply. `Offered(s, e)` says when the page
  can issue an event: the control is on screen and enabled, or a timer is
  pending. The handlers carry no guard that the code does not have.
  `IndexTraces` proves the workflow invariant over every series of offered
  events, and it proves the end-to-end generation and chat scenarios.
- `Steps` covers the step records, the fixed stage sequence, and the three
  list updates the page applies: activate, complete, reset.
- `ChatPanel` (src/components/ChatPanel.tsx) covers the submit guard and the
  conditions under which controls are enabled or shown.
- `TextInput` (src/components/TextInput.tsx) is the "Clean formatting"
  string transform. Each of its four chained operations is modelled with the
  exact JavaScript regular-expression semantics it relies on.
- `FileUpload` (src/components/FileUpload.tsx) covers the drop MIME filter,
  the file picker and the drag-over flag.
- `AbstractResult` (src/components/AbstractResult.tsx) covers the download
  content and file name, the source selection toggle, and the show-sources
  toggle.
- `TextUtil` holds the JavaScript string primitives these rely on:
  - the `\s` class and `trim()`, i.e. ECMAScript WhiteSpace plus
    LineTerminator, which includes U+00A0, U+FEFF and U+2028;
  - the ASCII `\d` class;
  - line terminators as a multiline `^` sees them;
  - `String.length`, which counts UTF-16 code units, so a character outside
    the Basic Multilingual Plane counts twice.

Notes on the code as it is:

- `handleGenerateAbstract` checks only `canGenerate`. It neither looks at the
  processing state nor resets the steps. The page stops a second run only by
  hiding the button outside the idle state (src/pages/Index.tsx:225), and
  `IndexTraces.GenerateDoesNotCheckState` shows what the handler alone would
  do.
- `handleSendMessage` has no loading guard. The guard lives in the chat
  panel's submit handler and Send button. `IndexTraces.ClearThenReply` shows
  that clearing the log does not cancel a pending reply.
- The `error` processing state is declared but no handler enters it.
  `IndexTraces.Reachable` proves it is never reached.
- `activeSource`, the file-or-text choice offered when both inputs are
  present, is recorded but generation never reads it. `SetSource` only
  records the choice.
- The generation threshold compares the UTF-16 length of the trimmed text
  with 100 (`Index.CanGenerate`).
- The result card stays on screen while the mode is switched, so its own
  show-sources flag survives a switch to the transformer mode and reopens the
  panel on the way back (`AbstractResult.ModeSwitchKeepsFlag`).
- The canned abstract shown on completion is referred to by a tag,
  `Index.CannedAbstract`; `Index.SummaryText` spells out its text.

## Model

| member | source | states |
|---|---|---|
| Index.CanGenerate | src/pages/Index.tsx:55 | Generation is possible with a file, or when the UTF-16 length of the trimmed text exceeds 100. |
| Index.Offered | src/pages/Index.tsx:161-287 | When the page can issue each event: the file controls by whether a file is selected, the source chooser when both inputs are present (`SourceChoiceShown`), the word-budget and style selectors when generation is possible, the grounding switch only when in addition the mode is interactive (src/components/Parameters.tsx:63), Generate when it is possible and the state is idle, Regenerate on a completed run, chat sends and Clear while the chat panel is on screen (`ChatShown`: interactive mode on a completed run), through the chat panel's guard and Clear condition, and a timer event while a timer is pending. |
| Index.ChatShown | src/pages/Index.tsx:261 | The chat panel is on screen exactly in interactive mode once processing has completed. |
| Index.SourceChoiceShown | src/pages/Index.tsx:187 | The file-or-text chooser is on screen exactly when a file is selected and the trimmed text is not empty. |
| Index.Apply | src/pages/Index.tsx:161-287 | Routes each event to what the page wires to its control: the mode switch (161), the file controls (176-178), the text box (182), the source chooser (189), the parameter callbacks (215-219), Generate (228), Regenerate (255) and the chat panel's send and clear (266). Timer events run the step and reply continuations. The setters go through `Store`. |
| Index.Store | src/pages/Index.tsx:161-219 | Each setter replaces only its own field with the control's value: mode, file selected or cleared, text, source, word budget, style, grounding. None of them changes processing, steps, timers, chat, the loading flag or pending replies. |
| Index.GenerateAbstract | src/pages/Index.tsx:57-81 | If generation is not possible the session is unchanged. Otherwise processing starts, one step timer for the first stage is added, and the step with id "extract" becomes active with "PDF parsed successfully" while every other step is left alone. No other field changes and the previous processing state is not consulted. |
| Index.FireTimer | src/pages/Index.tsx:83-97 | A timer index with no pending timer changes nothing. Only steps, timers and processing can change. Processing changes only when the last stage's timer fires, and then it becomes completed. |
| Index.RegenerateAbstract | src/pages/Index.tsx:131-134 | Processing becomes idle. Every step becomes pending with no message and keeps its id, caption and position. File, text, parameters, mode, chat and pending timers are untouched. |
| Index.SendMessage | src/pages/Index.tsx:103-112 | One user message with the given content is appended after an unchanged prefix. Loading becomes true and one reply is pending. No loading check is made. |
| Index.ReceiveReply | src/pages/Index.tsx:114-124 | With a pending reply, exactly one assistant message carrying three citations is appended after an unchanged prefix, and loading stops. Without one nothing changes. |
| Index.ClearMessages | src/pages/Index.tsx:127-129 | The log becomes empty; the loading flag and everything else are unchanged. |
| Index.ShownResult | src/pages/Index.tsx:244-257 | The result card is present exactly when processing is completed, and it carries a positive word count and three sources. |
| Steps.StagesMatchSteps | src/pages/Index.tsx:46-68 | The four stages drive the four displayed steps one to one, in display order, and the step ids are distinct. |
| Steps.Activate | src/pages/Index.tsx:77-81 | Only the step with the matching id changes: it becomes active and shows the message. Every other step is unchanged. |
| Steps.Complete | src/pages/Index.tsx:85-88 | Only the step with the matching id changes: it becomes completed and keeps its message. Every other step is unchanged. |
| Steps.Reset | src/pages/Index.tsx:133 | Every step becomes pending with no message, keeping id, caption and position. |
| Steps.ShapeOrdered | src/pages/Index.tsx:72-97 | Any step list of a run has at most one active step, and a completed step is preceded only by completed steps. |
| Steps.ActivateNext | src/pages/Index.tsx:72-81 | Activating the next stage's step makes that step, and nothing else, active. |
| Steps.CompleteRunning | src/pages/Index.tsx:83-95 | Completing the running stage's step completes that step and nothing else. |
| Steps.ResetShape | src/pages/Index.tsx:131-134 | Resetting the step list of any run gives back exactly the initial step list. |
| IndexTraces.InitInv | src/pages/Index.tsx:41-51 | The initial session satisfies the workflow invariant. |
| IndexTraces.StoreKeepsInv | src/pages/Index.tsx:161-219 | Any setter keeps the workflow invariant, whatever value it stores. |
| IndexTraces.GenerateKeepsInv | src/pages/Index.tsx:57-81 | An offered generate request keeps the invariant: the run is at stage 0 with the first step active. |
| IndexTraces.TickKeepsInv | src/pages/Index.tsx:83-97 | A step timer firing keeps the invariant: the run moves to the next stage or completes. |
| IndexTraces.RegenerateKeepsInv | src/pages/Index.tsx:131-134 | Regenerating a completed run keeps the invariant: idle, with all steps pending. |
| IndexTraces.InvPreserved | src/pages/Index.tsx:55-134 | Every offered event preserves the invariant. |
| IndexTraces.InvAlongTrace | src/pages/Index.tsx:55-134 | The invariant holds after any series of offered events. |
| IndexTraces.Reachable | src/pages/Index.tsx:17-134 | In every reachable state the error state is not entered, at most one step is active, steps complete in display order, and at most one reply is pending, exactly while loading. |
| IndexTraces.StepsAdvanceInOrder | src/pages/Index.tsx:63-97 | A step becomes completed only from active and only after all earlier steps are completed. A step becomes active only once every earlier step is completed. |
| IndexTraces.DoneCountStep | src/pages/Index.tsx:83-97 | An offered event completes at most one step, and only while a run is processing. |
| IndexTraces.ShapeAdvance | src/pages/Index.tsx:72-97 | Between two step lists of a run that differ by at most one completion, steps complete and start in display order. |
| IndexTraces.CompletionOnlyAfterFinalize | src/pages/Index.tsx:90-95 | Processing becomes completed only through a timer while the finalize step is active. At that moment all four steps are completed, each showing its stage message. |
| IndexTraces.GenerateDoesNotCheckState | src/pages/Index.tsx:57-60 | On a completed run the page does not offer generation. The handler itself would restart processing without resetting the steps, so the first step is active while the later three still show as completed. |
| IndexTraces.TickFrom | src/pages/Index.tsx:83-97 | In a run at stage k the single timer is offered. Firing it moves to stage k+1, or completes after the last stage, and leaves the chat alone. |
| IndexTraces.RemainingTicksComplete | src/pages/Index.tsx:83-96 | From stage k the remaining step timers are each offered in turn and complete the run. |
| IndexTraces.GenerateRunsToCompletion | src/pages/Index.tsx:57-101 | An offered generate followed by four timer firings is a valid run ending completed, with every step completed and showing its message. |
| IndexTraces.GenerateFromPastedText | src/pages/Index.tsx:55-101 | Pasting text whose trimmed length exceeds 100, generating, and letting the four timers fire completes the run, and the result card is shown. |
| IndexTraces.SendThenReply | src/pages/Index.tsx:103-124 | Sending appends the user turn and starts loading. The reply is then offered and appends exactly one assistant turn with three citations, and loading stops. Earlier messages are kept. |
| IndexTraces.NoSendWhileLoading | src/components/ChatPanel.tsx:28 | While a reply is pending, no message can be sent. |
| IndexTraces.ClearThenReply | src/pages/Index.tsx:114-129 | Clearing while a reply is pending does not cancel it: the reply becomes the only message of the emptied log. |
| IndexTraces.SubmitFeedsSend | src/components/ChatPanel.tsx:26-32 | Whatever the chat panel forwards is a send the page accepts. |
| IndexTraces.DropSelects | src/components/FileUpload.tsx:31-40 | A drop onto the empty upload box selects an accepted file, or leaves the selection empty when no dropped file is accepted. |
| IndexTraces.CleanedTextThreshold | src/components/TextInput.tsx:20-25 | "Clean formatting" stores the cleaned text through the text setter and changes nothing else. Because cleaned text is already trimmed, without a file generation becomes possible exactly when the cleaned text's UTF-16 length exceeds 100. |
| IndexTraces.CanGenerateThreshold | src/pages/Index.tsx:55 | Without a file, and for text inside the Basic Multilingual Plane, generation is possible exactly when the trimmed text is longer than 100 characters. |
| ChatPanel.Submit | src/components/ChatPanel.tsx:26-32 | Input is forwarded exactly when it is not blank and no reply is pending. What is forwarded is the trimmed input, and the field is then emptied; otherwise the field keeps its text. |
| ChatPanel.SendDisabled | src/components/ChatPanel.tsx:138 | The Send button is disabled when the trimmed input is empty or a reply is pending. |
| ChatPanel.InputDisabled | src/components/ChatPanel.tsx:133 | The text field is disabled exactly while a reply is pending. |
| ChatPanel.ClearShown | src/components/ChatPanel.tsx:42 | The Clear button is shown exactly when there is at least one message. |
| ChatPanel.EmptyHintShown | src/components/ChatPanel.tsx:62 | The empty-conversation hint is shown exactly when there are no messages. |
| ChatPanel.SendEnabledIffForwarded | src/components/ChatPanel.tsx:136-138 | The Send button is enabled exactly when pressing it forwards a message. |
| ChatPanel.ClearOrHint | src/components/ChatPanel.tsx:42-62 | Exactly one of the Clear button and the empty-conversation hint is shown. |
| TextInput.StripLineNumbers | src/components/TextInput.tsx:21 | Removing line-leading numbers never lengthens the text. What it removes is stated by StripLeadingNumber (start of the text), StripAfterLineBreak (a line start reached through a kept line terminator), StripNumberedLine (a line start reached through a match whose whitespace ended in a line terminator) and StripKeeps (every other character is kept). |
| TextInput.StripKeeps | src/components/TextInput.tsx:21 | A character that does not begin a number at the start of a line is kept, and the next character starts a line exactly when this one is a line terminator. |
| TextInput.StripAfterLineBreak | src/components/TextInput.tsx:21 | After any line terminator, a digit run and the whitespace after it (possibly none) are removed. |
| TextInput.StripNumberedLine | src/components/TextInput.tsx:21 | A match is a digit run plus all the whitespace after it. Scanning resumes right behind it, and a new line starts there exactly when that whitespace ended in a line terminator, so in "1\n2 x" the second number goes too (this lemma, then StripLeadingNumber). |
| TextInput.CollapseSpaces | src/components/TextInput.tsx:22 | The result is single-spaced and no longer than the input. It is empty exactly when the input is, and it starts and ends with whitespace exactly when the input does. |
| TextInput.CollapseAppend | src/components/TextInput.tsx:22 | Text ending in a non-whitespace character and what follows it are collapsed independently: no whitespace run crosses the boundary. |
| TextInput.CollapseRun | src/components/TextInput.tsx:22 | A whitespace run followed by a non-whitespace character, or by the end of the text, becomes exactly one space. |
| TextInput.CollapseBetweenWords | src/components/TextInput.tsx:22 | A whitespace run between two words becomes exactly one space, so words are kept apart. |
| TextInput.CollapseKeepsVisible | src/components/TextInput.tsx:22 | Collapsing whitespace keeps every non-whitespace character, in order. |
| TextInput.SquashBlankLines | src/components/TextInput.tsx:23 | Squashing blank lines never lengthens the text. |
| TextInput.SquashWithoutLineFeeds | src/components/TextInput.tsx:23 | Text with no line feed passes the blank-line rule unchanged. |
| TextInput.SquashedIsCollapsed | src/components/TextInput.tsx:22-23 | After whitespace is collapsed, the blank-line rule never matches. |
| TextInput.Clean | src/components/TextInput.tsx:20-24 | The cleaned text has no whitespace at either end and is never longer than the pasted text. |
| TextInput.CleanShape | src/components/TextInput.tsx:21-24 | The cleaned text is trimmed, its only whitespace is single spaces, and it has no line break. |
| TextInput.TrimSingleSpaced | src/components/TextInput.tsx:24 | Trimming a single-spaced text keeps it single-spaced and free of line breaks. |
| TextInput.CleanBlank | src/components/TextInput.tsx:20-24 | Empty or all-whitespace text cleans to the empty text. |
| TextInput.BlankCollapses | src/components/TextInput.tsx:22 | A blank text collapses to a blank text. |
| TextInput.StripBlank | src/components/TextInput.tsx:21 | Blank text loses nothing to the line-number rule. |
| TextInput.StripWithoutBreaks | src/components/TextInput.tsx:21 | Text with no line terminator loses nothing to the line-number rule unless it starts a line with a digit. |
| TextInput.StripWithoutBreaksAll | src/components/TextInput.tsx:21 | A single-spaced text that does not open with a digit loses nothing to the line-number rule. |
| TextInput.CollapseSingleSpaced | src/components/TextInput.tsx:22 | Collapsing an already single-spaced text changes nothing. |
| TextInput.CleanUnchanged | src/components/TextInput.tsx:20-24 | Trimmed, single-spaced text that has no line break and does not open with a digit is returned unchanged. |
| TextInput.StripLeadingNumber | src/components/TextInput.tsx:21 | A leading digit run is stripped together with all the whitespace after it. |
| TextInput.MatchLength | src/components/TextInput.tsx:21 | The line-number match at the start of digits + whitespace + text covers exactly the digits and the whitespace. |
| TextInput.StripIgnoresFlag | src/components/TextInput.tsx:21 | For text that does not open with a digit, whether it starts a line does not matter to the line-number rule. |
| TextInput.LeadingNumberRemoved | src/components/TextInput.tsx:21 | A digit run at the start, with whatever whitespace follows it (possibly none), makes no difference to the cleaned result. |
| TextInput.NumberBeforeWord | src/components/TextInput.tsx:21-24 | A line number before a lower-case word cleans to just the word. |
| TextInput.NumberWithoutGap | src/components/TextInput.tsx:21 | "12abc" cleans to "abc". |
| TextInput.CleanNotIdempotent | src/components/TextInput.tsx:20-24 | " 5 x" cleans to "5 x", which cleans to "x": cleaning is not idempotent. |
| TextInput.CleanSpaceThenText | src/components/TextInput.tsx:22-24 | A single space before already clean text is all that cleaning removes. |
| TextInput.PlainWord | src/components/TextInput.tsx:20-24 | A word of lower-case letters is already clean. |
| TextUtil.Trim | src/components/TextInput.tsx:24 | The result has no whitespace at either end. It is the input with a maximal whitespace prefix and a whitespace suffix removed, and it is empty exactly when the input is all whitespace. |
| TextUtil.TrimUnchanged | src/components/TextInput.tsx:24 | Trimming text with no whitespace at either end changes nothing. |
| TextUtil.TrimLeadingSpace | src/components/TextInput.tsx:24 | Trimming whitespace followed by trimmed text yields that text. |
| TextUtil.SpaceRun | src/components/TextInput.tsx:21 | The length of the longest whitespace prefix: all whitespace up to it, and none at it. |
| TextUtil.DigitRun | src/components/TextInput.tsx:21 | The length of the longest digit prefix: all digits up to it, and none at it. |
| TextUtil.Utf16Length | src/pages/Index.tsx:55 | The JavaScript length is the number of characters plus the number of characters outside the Basic Multilingual Plane, and so lies between the character count and twice that. |
| TextUtil.Utf16LengthBmp | src/pages/Index.tsx:55 | The JavaScript length equals the number of characters exactly when every character is inside the Basic Multilingual Plane. |
| FileUpload.Accepted | src/components/FileUpload.tsx:33-35 | A file is accepted when its declared type equals "application/pdf", the DOCX word-processing type, or "text/plain". |
| FileUpload.FirstAccepted | src/components/FileUpload.tsx:32-36 | Returns the position of the first file of an accepted type, with no accepted file before it, or none exactly when no file is accepted. |
| FileUpload.Drop | src/components/FileUpload.tsx:27-41 | A drop clears the highlight. It selects a dropped file of an accepted type, and selects nothing exactly when no dropped file is accepted. |
| FileUpload.DropSelectsFirstAccepted | src/components/FileUpload.tsx:32-36 | The file selected is the first accepted one in drop order; earlier files of other types are skipped. |
| FileUpload.ExactTypeMatch | src/components/FileUpload.tsx:33-35 | Types are matched by exact string equality: "Application/PDF" is rejected. |
| FileUpload.Pick | src/components/FileUpload.tsx:43-48 | The picker selects its first file whatever its type, selects nothing for an empty choice, and leaves the highlight alone. |
| FileUpload.HighlightFollowsLastEvent | src/components/FileUpload.tsx:17-30 | After any non-empty series of drag events, the box is highlighted exactly when the last one was a drag-over. |
| AbstractResult.DownloadContent | src/components/AbstractResult.tsx:40-42 | The .txt content is the abstract itself. The .tex content is the LaTeX abstract opening line, the abstract, and the closing line on its own line. |
| AbstractResult.TexRoundTrip | src/components/AbstractResult.tsx:40-42 | Removing the fixed .tex prefix and suffix recovers the abstract, and only the .tex download of an abstract unwraps to it. |
| AbstractResult.DownloadInjective | src/components/AbstractResult.tsx:40-42 | Distinct abstracts give distinct downloads in either format. |
| AbstractResult.DownloadName | src/components/AbstractResult.tsx:48 | The file name is "abstract." followed by the format's extension. |
| AbstractResult.DownloadNamesDiffer | src/components/AbstractResult.tsx:48 | The two formats are saved under different names. |
| AbstractResult.ClickSource | src/components/AbstractResult.tsx:172-174 | Clicking deselects exactly when the clicked source was the selected one, and otherwise selects its id. |
| AbstractResult.ClickTwice | src/components/AbstractResult.tsx:172-174 | Two clicks on the same source restore the selection exactly when that source or nothing was selected. |
| AbstractResult.SourcesOffered | src/components/AbstractResult.tsx:117 | The show-sources button and the sources panel exist exactly in interactive mode with a non-empty source list. |
| AbstractResult.ApplyView | src/components/AbstractResult.tsx:121 | The toggle flips the show-sources flag and keeps the selection and mode. A click keeps flag and mode, and deselects exactly when the clicked source was selected. A mode change sets the mode and keeps the flag and the selection. |
| AbstractResult.ViewTraceValid | src/components/AbstractResult.tsx:151-174 | Through the controls on screen, with the mode switched at any point, the selection only ever names a displayed source. |
| AbstractResult.ModeSwitchKeepsFlag | src/components/AbstractResult.tsx:117-152 | Opening the sources and switching to the transformer mode hides the panel but leaves the flag set, so switching back shows the panel again without a toggle. |

## Left out

- Timer delays (src/pages/Index.tsx:64-67 and :124) are not modelled. Each timer firing is an event, and a pending timer can fire at any point.
- Message ids from `Date.now()` are parameters of the send and reply events. Their uniqueness is not claimed.
- Clipboard copy, `Blob`, object URLs and the anchor click are browser APIs. Only the download's content and file name are modelled.
- The file-size display and the `toLocaleString` character count are display formatting and are not modelled.
- The "Clean formatting" button's busy flag and its 500 ms timer are not modelled. So is the fact that the timer cleans the text as it was when the button was pressed. `TextInput.Clean` is the transform applied to that text.
- The mobile chat modal (`showMobileChat`) is layout only; the chat is treated as shown exactly in interactive mode once an abstract exists.
- The `accept=".pdf,.docx,.txt"` attribute of the file picker is only a browser hint, so `FileUpload.Pick` performs no type check, as its handler does not.
- React re-rendering and state batching are not modelled; each handler is one atomic update of the session.
- JSX rendering, the mode descriptions, ModeSwitch, ProgressSteps and the layout of Parameters are presentation. Two things from Parameters are modelled: its word-budget and style option sets, as enumerations, and the grounding switch being shown only in interactive mode (src/components/Parameters.tsx:63), which `Index.Offered` uses.
- No failure path into the `error` state exists in the code, so none is modelled.
- IndexTraces.CanGenerateThreshold: states the exact 100/101 boundary only for text inside the Basic Multilingual Plane, where the JavaScript length is the character count. `Index.CanGenerate` itself uses the UTF-16 length for all text.

=== FILE: abstract_result.dfy ===
/** The result card: the text and file name of the two download formats, the
    single-selection of a supporting source, and the show-sources toggle. */
module AbstractResult {
  import opened Basics

  datatype Format = Txt | Tex

  /** A supporting excerpt shown under the abstract. */
  datatype SourceRef = SourceRef(section: string, snippet: string, id: string)

  const TexOpen: string := "\\begin{abstract}\n"
  const TexClose: string := "\n\\end{abstract}"

  function Extension(format: Format): string {
    match format
    case Txt => "txt"
    case Tex => "tex"
  }

  /** The downloaded text: the abstract itself for `.txt`; for `.tex` the
      abstract on its own lines inside a LaTeX `abstract` environment. */
  function DownloadContent(text: string, format: Format): (r: string)
    ensures format == Txt ==> r == text
    ensures format == Tex ==> |r| == |TexOpen| + |text| + |TexClose|
    ensures format == Tex ==> r[..|TexOpen|] == TexOpen && r[|r| - |TexClose|..] == TexClose
    ensures format == Tex ==> r[|TexOpen|..|r| - |TexClose|] == text
  {
    match format
    case Txt => text
    case Tex =>
      var r := TexOpen + text + TexClose;
      assert r[..|TexOpen|] == TexOpen;
      assert r[|TexOpen|..|r| - |TexClose|] == text;
      r
  }

  /** Recovers the abstract from a `.tex` download, if `content` has that shape. */
  function Unwrap(content: string): Option<string> {
    if |content| >= |TexOpen| + |TexClose|
       && content[..|TexOpen|] == TexOpen
       && content[|content| - |TexClose|..] == TexClose
    then Some(content[|TexOpen|..|content| - |TexClose|])
    else None
  }

  /** Unwrapping a `.tex` download gives back the abstract, and any text that
      unwraps to an abstract is the `.tex` download of that abstract. */
  lemma TexRoundTrip(text: string, content: string)
    ensures Unwrap(DownloadContent(text, Tex)) == Some(text)
    ensures Unwrap(content) == Some(text) ==> DownloadContent(text, Tex) == content
  {
    if Unwrap(content) == Some(text) {
      assert content == content[..|TexOpen|] + content[|TexOpen|..|content| - |TexClose|] + content[|content| - |TexClose|..];
    }
  }

  /** Distinct abstracts give distinct downloads, in either format. */
  lemma DownloadInjective(a: string, b: string, format: Format)
    requires DownloadContent(a, format) == DownloadContent(b, format)
    ensures a == b
  {
    if format == Tex {
      TexRoundTrip(a, DownloadContent(b, Tex));
      TexRoundTrip(b, DownloadContent(b, Tex));
    }
  }

  /** The download is named `abstract.` followed by the format. */
  function DownloadName(format: Format): (r: string)
    ensures |r| == 12 && r[..9] == "abstract."
    ensures r[9..] == Extension(format)
  {
    "abstract." + Extension(format)
  }

  /** The two formats are saved under different names. */
  lemma DownloadNamesDiffer()
    ensures DownloadName(Txt) != DownloadName(Tex)
  {
    assert DownloadName(Txt)[9..][1] != DownloadName(Tex)[9..][1];
  }

  /** Clicking a source deselects it when it is the selected one and selects
      it otherwise; at most one source is selected at any time. */
  function ClickSource(selected: Option<string>, id: string): (r: Option<string>)
    ensures r.None? <==> selected == Some(id)
    ensures r.Some? ==> r.value == id
  {
    if selected == Some(id) then None else Some(id)
  }

  /** A second click on the same source undoes the first exactly when that
      source was selected or nothing was. */
  lemma ClickTwice(selected: Option<string>, id: string)
    ensures ClickSource(ClickSource(selected, id), id) == selected <==> selected == None || selected == Some(id)
  {
  }

  /** The show-sources button and the sources panel exist only in interactive
      mode and only when there are sources. */
  predicate SourcesOffered(mode: Mode, sources: seq<SourceRef>) {
    mode == Llm && |sources| > 0
  }

  /** The card's view state: the mode it is given by the page, and its own
      show-sources flag and selected source. The card stays on screen while
      the mode is switched, so its own state outlives a mode change. */
  datatype View = View(mode: Mode, showSources: bool, selected: Option<string>)

  function InitialView(mode: Mode): View {
    View(mode, false, None)
  }

  /** The sources panel is open: it exists, and the flag says open. */
  predicate PanelOpen(sources: seq<SourceRef>, v: View) {
    SourcesOffered(v.mode, sources) && v.showSources
  }

  /** Events reaching the card: the toggle button, a click on a source card,
      and the page's mode switch, which is always on screen. */
  datatype ViewEvent = ToggleSources | Click(id: string) | ModeChange(mode: Mode)

  /** A view event can be issued only through a control on screen: the toggle
      when sources are offered, a source card when the panel is open, the
      mode switch at any time. */
  predicate ViewOffered(sources: seq<SourceRef>, v: View, e: ViewEvent) {
    match e
    case ToggleSources => SourcesOffered(v.mode, sources)
    case Click(id) => PanelOpen(sources, v) && exists k | 0 <= k < |sources| :: sources[k].id == id
    case ModeChange(_) => true
  }

  function ApplyView(v: View, e: ViewEvent): (r: View)
    ensures e.ToggleSources? ==> r.showSources != v.showSources && r.selected == v.selected && r.mode == v.mode
    ensures e.Click? ==> r.showSources == v.showSources && r.mode == v.mode
    ensures e.Click? ==> (r.selected.None? <==> v.selected == Some(e.id))
    ensures e.ModeChange? ==> r.mode == e.mode && r.showSources == v.showSources && r.selected == v.selected
  {
    match e
    case ToggleSources => v.(showSources := !v.showSources)
    case Click(id) => v.(selected := ClickSource(v.selected, id))
    case ModeChange(m) => v.(mode := m)
  }

  predicate SelectionValid(sources: seq<SourceRef>, v: View) {
    v.selected.Some? ==> exists k | 0 <= k < |sources| :: sources[k].id == v.selected.value
  }

  /** Through the controls on screen, whatever the mode switches in between,
      the selection only ever names one of the displayed sources. */
  lemma {:induction false} ViewTraceValid(sources: seq<SourceRef>, v: View, events: seq<ViewEvent>)
    requires SelectionValid(sources, v)
    requires forall i | 0 <= i < |events| :: ViewOffered(sources, ViewAfter(v, events[..i]), events[i])
    ensures SelectionValid(sources, ViewAfter(v, events))
    decreases |events|
  {
    if events != [] {
      var n := |events| - 1;
      assert events[..n][..n] == events[..n];
      assert forall i | 0 <= i < n :: events[..n][i] == events[i] && events[..n][..i] == events[..i];
      ViewTraceValid(sources, v, events[..n]);
      ViewAfterStep(v, events);
    }
  }

  function ViewAfter(v: View, events: seq<ViewEvent>): View
    decreases |events|
  {
    if events == [] then v else ApplyView(ViewAfter(v, events[..|events| - 1]), events[|events| - 1])
  }

  lemma ViewAfterStep(v: View, events: seq<ViewEvent>)
    requires events != []
    ensures ViewAfter(v, events) == ApplyView(ViewAfter(v, events[..|events| - 1]), events[|events| - 1])
  {
  }

  /** Opening the sources and then switching to the transformer mode hides
      the panel but leaves the flag set, so switching back to interactive
      mode shows the panel again with no further toggle. */
  lemma ModeSwitchKeepsFlag(sources: seq<SourceRef>)
    requires |sources| > 0
    ensures var v1 := ApplyView(InitialView(Llm), ToggleSources);
            var v2 := ApplyView(v1, ModeChange(Transformer));
            var v3 := ApplyView(v2, ModeChange(Llm));
      && ViewOffered(sources, InitialView(Llm), ToggleSources) && PanelOpen(sources, v1)
      && !PanelOpen(sources, v2) && v2.showSources
      && PanelOpen(sources, v3)
  {
  }
}

=== FILE: basics.dfy ===
/** Small shared vocabulary: an optional value and the two operating modes. */
module Basics {

  /** A value that may be absent (the source's `null` / `undefined`). */
  datatype Option<+T> = None | Some(value: T)

  /** The operating mode chosen with the mode switch: the deterministic
      transformer pipeline, or the interactive LLM mode that enables the chat. */
  datatype Mode = Transformer | Llm
}

=== FILE: chat_panel.dfy ===
/** The chat panel: the submit guard of its form and the conditions under
    which its controls are enabled or shown. */
module ChatPanel {
  import opened Basics
  import opened TextUtil

  datatype Role = User | Assistant

  /** One entry of the conversation. `sources` is absent on user messages. */
  datatype ChatMessage = ChatMessage(id: string, role: Role, content: string, sources: Option<seq<string>>)

  /** The effect of submitting the form: the text handed to the send callback
      (`None` when the callback is not called) and the input field afterwards. */
  datatype Submission = Submission(forwarded: Option<string>, input: string)

  /** Submitting forwards the trimmed input, and empties the field, exactly
      when the input is not blank and no reply is pending; otherwise nothing
      is forwarded and the field keeps its text. */
  function Submit(input: string, loading: bool): (r: Submission)
    ensures r.forwarded.Some? <==> !AllSpace(input) && !loading
    ensures r.forwarded.Some? ==> r.forwarded.value == Trim(input) && r.input == []
    ensures r.forwarded.Some? ==> r.forwarded.value != [] && NoOuterSpace(r.forwarded.value)
    ensures r.forwarded.None? ==> r.input == input
  {
    var t := Trim(input);
    if t != [] && !loading then Submission(Some(t), []) else Submission(None, input)
  }

  /** The send button is disabled for blank input or while loading. */
  predicate SendDisabled(input: string, loading: bool) {
    Trim(input) == [] || loading
  }

  /** The text field is disabled while loading. */
  predicate InputDisabled(loading: bool) {
    loading
  }

  /** The clear button appears only when there is something to clear. */
  predicate ClearShown(messages: seq<ChatMessage>) {
    |messages| > 0
  }

  /** The "no questions yet" hint appears only for an empty conversation. */
  predicate EmptyHintShown(messages: seq<ChatMessage>) {
    |messages| == 0
  }

  /** The send button is enabled exactly when pressing it forwards a message,
      and the field is blank afterwards exactly in that case. */
  lemma SendEnabledIffForwarded(input: string, loading: bool)
    ensures !SendDisabled(input, loading) <==> Submit(input, loading).forwarded.Some?
    ensures !SendDisabled(input, loading) && input != [] ==> Submit(input, loading).input != input
  {
  }

  /** Exactly one of the clear button and the empty-conversation hint is shown. */
  lemma ClearOrHint(messages: seq<ChatMessage>)
    ensures ClearShown(messages) != EmptyHintShown(messages)
  {
  }
}

=== FILE: file_upload.dfy ===
/** The upload box: the type filter applied to dropped files, the file
    picker, and the drag-over highlight flag. */
module FileUpload {
  import opened Basics

  /** A browser `File` as far as the upload box looks at it: its declared
      MIME type. The name and byte size are carried along for display. */
  datatype FileInfo = FileInfo(name: string, mimeType: string, size: nat)

  const PdfType: string := "application/pdf"
  const DocxType: string := "application/vnd.openxmlformats-officedocument.wordprocessingml.document"
  const PlainTextType: string := "text/plain"

  /** A dropped file is accepted on exact equality of its declared type with
      one of the three supported types. */
  predicate Accepted(f: FileInfo) {
    f.mimeType == PdfType || f.mimeType == DocxType || f.mimeType == PlainTextType
  }

  /** Position of the first accepted file, in drop order. */
  function FirstAccepted(files: seq<FileInfo>): (r: Option<nat>)
    ensures r.Some? ==> r.value < |files| && Accepted(files[r.value])
    ensures r.Some? ==> forall j | 0 <= j < r.value :: !Accepted(files[j])
    ensures r.None? <==> forall j | 0 <= j < |files| :: !Accepted(files[j])
  {
    if files == [] then None
    else if Accepted(files[0]) then Some(0)
    else match FirstAccepted(files[1..])
      case Some(k) => Some(k + 1)
      case None => None
  }

  /** What a handler does: the new drag-over flag, and the file passed to the
      selection callback (`None` when the callback is not called). */
  datatype Outcome = Outcome(dragOver: bool, select: Option<FileInfo>)

  /** Dropping files clears the highlight and selects the first dropped file
      of an accepted type, if there is one. */
  function Drop(files: seq<FileInfo>): (r: Outcome)
    ensures !r.dragOver
    ensures r.select.Some? ==> r.select.value in files && Accepted(r.select.value)
    ensures r.select.None? <==> forall j | 0 <= j < |files| :: !Accepted(files[j])
  {
    match FirstAccepted(files)
    case Some(k) => Outcome(false, Some(files[k]))
    case None => Outcome(false, None)
  }

  /** Choosing files in the picker selects the first one, whatever its type;
      an empty choice selects nothing. The highlight flag is not touched. */
  function Pick(dragOver: bool, files: seq<FileInfo>): (r: Outcome)
    ensures r.dragOver == dragOver
    ensures r.select.Some? <==> files != []
    ensures files != [] ==> r.select.value == files[0]
  {
    if files == [] then Outcome(dragOver, None) else Outcome(dragOver, Some(files[0]))
  }

  /** The drop selects precisely the first accepted file: earlier files of
      other types are skipped. */
  lemma DropSelectsFirstAccepted(files: seq<FileInfo>, i: nat)
    requires i < |files| && Accepted(files[i])
    requires forall j | 0 <= j < i :: !Accepted(files[j])
    ensures Drop(files).select == Some(files[i])
  {
  }

  /** Type checking is by exact string: a type that differs in any way, even
      only in letter case, is rejected. */
  lemma ExactTypeMatch(f: FileInfo)
    requires f.mimeType == "Application/PDF"
    ensures Drop([f]).select == None
  {
    assert f.mimeType[0] != PdfType[0];
  }

  /** Drag events that drive the highlight flag. */
  datatype DragEvent = DragOver | DragLeave | Dropped(files: seq<FileInfo>)

  function OnDrag(flag: bool, e: DragEvent): bool {
    match e
    case DragOver => true
    case DragLeave => false
    case Dropped(files) => Drop(files).dragOver
  }

  function FlagAfter(flag: bool, events: seq<DragEvent>): bool
    decreases |events|
  {
    if events == [] then flag else FlagAfter(OnDrag(flag, events[0]), events[1..])
  }

  /** After any non-empty series of drag events the box is highlighted exactly
      when the last event was a drag-over. */
  lemma {:induction false} HighlightFollowsLastEvent(flag: bool, events: seq<DragEvent>)
    requires events != []
    ensures FlagAfter(flag, events) <==> events[|events| - 1].DragOver?
    decreases |events|
  {
    if |events| > 1 {
      HighlightFollowsLastEvent(OnDrag(flag, events[0]), events[1..]);
    }
  }
}

=== FILE: index.dfy ===
/** The page-level session: inputs, generation parameters, the generation
    workflow (idle, processing, completed) driving the step pipeline, and the
    chat log with its loading flag. Each handler is one atomic update; each
    timer callback is an explicit event. */
module Index {
  import opened Basics
  import opened TextUtil
  import opened Steps
  import ChatPanel
  import FileUpload
  import AbstractResult

  /** Which input the source chooser points at. */
  datatype Source = FromFile | FromText

  datatype WordBudget = Words150 | Words220 | Words300 | Words400

  datatype Style = Generic | Ieee | Arxiv | Nature

  /** `Error` is a declared state that no handler ever enters. */
  datatype ProcessingState = Idle | Processing | Completed | Error

  /** The page state. `timers` holds the pending step timers, each by the
      index of the stage it will complete; `replies` counts pending chat
      replies. */
  datatype Session = Session(
    mode: Mode,
    file: Option<FileUpload.FileInfo>,
    text: string,
    source: Source,
    wordBudget: WordBudget,
    style: Style,
    ground: bool,
    processing: ProcessingState,
    steps: seq<Step>,
    timers: seq<StageIndex>,
    chat: seq<ChatPanel.ChatMessage>,
    chatLoading: bool,
    replies: nat)

  const Init: Session := Session(
    Transformer, None, "", FromFile, Words220, Generic, true,
    Idle, InitialSteps, [], [], false, 0)

  /** Minimum length the trimmed pasted text must exceed. */
  const MinTextLength: nat := 100

  /** Generation is possible with a file, or with pasted text whose trimmed
      JavaScript length exceeds the threshold. */
  predicate CanGenerate(s: Session) {
    s.file.Some? || Utf16Length(Trim(s.text)) > MinTextLength
  }

  /** Everything a user or a timer can do to the page. `Tick(t)` runs the
      `t`-th pending step timer; `Reply` runs the pending chat reply timer.
      Message ids come from the clock and are supplied with the event. */
  datatype Event =
    | SetMode(mode: Mode)
    | SelectFile(file: FileUpload.FileInfo)
    | ClearFile
    | SetText(text: string)
    | SetSource(source: Source)
    | SetWordBudget(wordBudget: WordBudget)
    | SetStyle(style: Style)
    | SetGround(ground: bool)
    | Generate
    | Tick(timer: nat)
    | Regenerate
    | Send(content: string, id: string)
    | Reply(id: string)
    | ClearChat

  /** Starting stage `k`: its step becomes active and a timer for it is set. */
  function StartStage(s: Session, k: StageIndex): Session {
    s.(steps := Activate(s.steps, Stages[k].step, Stages[k].message), timers := s.timers + [k])
  }

  /** The generate handler. It checks only that generation is possible: it
      neither looks at the processing state nor resets the steps. */
  function GenerateAbstract(s: Session): (r: Session)
    ensures !CanGenerate(s) ==> r == s
    ensures CanGenerate(s) ==> r.processing == Processing && r.timers == s.timers + [0]
    ensures |r.steps| == |s.steps|
    ensures CanGenerate(s) ==> forall i | 0 <= i < |s.steps| ::
      r.steps[i] == (if s.steps[i].id == "extract"
                     then s.steps[i].(status := Active, message := Some("PDF parsed successfully"))
                     else s.steps[i])
    ensures r == s.(processing := r.processing, steps := r.steps, timers := r.timers)
  {
    if !CanGenerate(s) then s
    else StartStage(s.(processing := Processing), 0)
  }

  /** A step timer firing: its step is completed, and then either the next
      stage starts or, after the last stage, processing is completed. */
  function FireTimer(s: Session, t: nat): (r: Session)
    ensures t >= |s.timers| ==> r == s
    ensures r == s.(processing := r.processing, steps := r.steps, timers := r.timers)
    ensures r.processing != s.processing ==> t < |s.timers| && s.timers[t] == StageCount - 1 && r.processing == ProcessingState.Completed
  {
    if t >= |s.timers| then s
    else
      var k := s.timers[t];
      var rest := s.timers[..t] + s.timers[t + 1..];
      var done := Complete(s.steps, Stages[k].step);
      if k + 1 < StageCount then
        StartStage(s.(steps := done, timers := rest), k + 1)
      else
        s.(steps := done, timers := rest, processing := ProcessingState.Completed)
  }

  /** The regenerate handler: back to idle with every step pending and
      without a message. Inputs, parameters, mode, chat and pending timers
      are untouched. */
  function RegenerateAbstract(s: Session): (r: Session)
    ensures r.processing == Idle
    ensures |r.steps| == |s.steps|
    ensures forall i | 0 <= i < |s.steps| ::
      && r.steps[i].id == s.steps[i].id && r.steps[i].caption == s.steps[i].caption
      && r.steps[i].status == Pending && r.steps[i].message == None
    ensures r == s.(processing := Idle, steps := r.steps)
  {
    s.(processing := Idle, steps := Reset(s.steps))
  }

  /** The reply text and citations of the simulated assistant. */
  const ReplyContent: string := "Based on your uploaded paper, this study demonstrates significant improvements in machine learning approaches for scientific document analysis. The key findings include an 89% semantic coherence score and successful application across multiple research domains. The methodology shows particular strength in preserving technical accuracy while enhancing readability."
  const ReplySources: seq<string> := ["Methods \U{00A7}2.1", "Results \U{00A7}3.4", "Discussion \U{00A7}4.2"]

  /** The send handler: the user's message is appended and loading starts;
      a reply timer is set. There is no loading check here. */
  function SendMessage(s: Session, content: string, id: string): (r: Session)
    ensures |r.chat| == |s.chat| + 1 && r.chat[..|s.chat|] == s.chat
    ensures r.chat[|s.chat|].role == ChatPanel.User && r.chat[|s.chat|].content == content
    ensures r.chatLoading && r.replies == s.replies + 1
    ensures r == s.(chat := r.chat, chatLoading := true, replies := r.replies)
  {
    s.(chat := s.chat + [ChatPanel.ChatMessage(id, ChatPanel.User, content, None)],
       chatLoading := true,
       replies := s.replies + 1)
  }

  /** The reply timer firing: one assistant message with three citations is
      appended and loading stops. */
  function ReceiveReply(s: Session, id: string): (r: Session)
    ensures s.replies == 0 ==> r == s
    ensures s.replies > 0 ==> |r.chat| == |s.chat| + 1 && r.chat[..|s.chat|] == s.chat
    ensures s.replies > 0 ==> r.chat[|s.chat|].role == ChatPanel.Assistant
    ensures s.replies > 0 ==> r.chat[|s.chat|].sources.Some? && |r.chat[|s.chat|].sources.value| == 3
    ensures s.replies > 0 ==> !r.chatLoading && r.replies == s.replies - 1
    ensures r == s.(chat := r.chat, chatLoading := r.chatLoading, replies := r.replies)
  {
    if s.replies == 0 then s
    else
      s.(chat := s.chat + [ChatPanel.ChatMessage(id, ChatPanel.Assistant, ReplyContent, Some(ReplySources))],
         chatLoading := false,
         replies := s.replies - 1)
  }

  /** The clear handler empties the log and leaves the loading flag alone. */
  function ClearMessages(s: Session): (r: Session)
    ensures r.chat == []
    ensures r == s.(chat := [])
  {
    s.(chat := [])
  }

  /** The events that only store a control's new value. */
  predicate IsSetter(e: Event) {
    e.SetMode? || e.SelectFile? || e.ClearFile? || e.SetText? || e.SetSource?
    || e.SetWordBudget? || e.SetStyle? || e.SetGround?
  }

  /** The run and the chat are the same in both sessions. */
  predicate SameWorkflow(s: Session, r: Session) {
    && r.processing == s.processing && r.steps == s.steps && r.timers == s.timers
    && r.chat == s.chat && r.chatLoading == s.chatLoading && r.replies == s.replies
  }

  /** A setter stores its control's value and changes no other field; in
      particular it leaves the run and the chat alone. */
  function Store(s: Session, e: Event): (r: Session)
    requires IsSetter(e)
    ensures e.SetMode? ==> r.mode == e.mode && r == s.(mode := r.mode)
    ensures e.SelectFile? ==> r.file == Some(e.file) && r == s.(file := r.file)
    ensures e.ClearFile? ==> r.file.None? && r == s.(file := r.file)
    ensures e.SetText? ==> r.text == e.text && r == s.(text := r.text)
    ensures e.SetSource? ==> r.source == e.source && r == s.(source := r.source)
    ensures e.SetWordBudget? ==> r.wordBudget == e.wordBudget && r == s.(wordBudget := r.wordBudget)
    ensures e.SetStyle? ==> r.style == e.style && r == s.(style := r.style)
    ensures e.SetGround? ==> r.ground == e.ground && r == s.(ground := r.ground)
    ensures SameWorkflow(s, r)
  {
    if e.SetMode? then s.(mode := e.mode)
    else if e.SelectFile? then s.(file := Some(e.file))
    else if e.ClearFile? then s.(file := None)
    else if e.SetText? then s.(text := e.text)
    else if e.SetSource? then s.(source := e.source)
    else if e.SetWordBudget? then s.(wordBudget := e.wordBudget)
    else if e.SetStyle? then s.(style := e.style)
    else s.(ground := e.ground)
  }

  /** The effect of one event. */
  function Apply(s: Session, e: Event): Session {
    match e
    case Generate => GenerateAbstract(s)
    case Tick(t) => FireTimer(s, t)
    case Regenerate => RegenerateAbstract(s)
    case Send(c, id) => SendMessage(s, c, id)
    case Reply(id) => ReceiveReply(s, id)
    case ClearChat => ClearMessages(s)
    case _ => Store(s, e)
  }

  /** The chat panel is on screen in interactive mode once an abstract exists. */
  predicate ChatShown(s: Session) {
    s.mode == Llm && s.processing == ProcessingState.Completed
  }

  /** The file/text chooser is shown when both inputs are present. */
  predicate SourceChoiceShown(s: Session) {
    s.file.Some? && Trim(s.text) != []
  }

  /** Whether the page offers event `e`: user events need their control on
      screen and enabled; a timer event needs a pending timer. */
  predicate Offered(s: Session, e: Event) {
    match e
    case SetMode(_) => true
    case SelectFile(_) => s.file.None?
    case ClearFile => s.file.Some?
    case SetText(_) => true
    case SetSource(_) => SourceChoiceShown(s)
    case SetWordBudget(_) => CanGenerate(s)
    case SetStyle(_) => CanGenerate(s)
    case SetGround(_) => CanGenerate(s) && s.mode == Llm
    case Generate => CanGenerate(s) && s.processing == Idle
    case Tick(t) => t < |s.timers|
    case Regenerate => s.processing == ProcessingState.Completed
    case Send(c, _) => ChatShown(s) && ChatPanel.Submit(c, s.chatLoading).forwarded == Some(c)
    case Reply(_) => s.replies > 0
    case ClearChat => ChatShown(s) && ChatPanel.ClearShown(s.chat)
  }

  /** The state after a series of events. */
  function Run(s: Session, events: seq<Event>): Session
    decreases |events|
  {
    if events == [] then s else Run(Apply(s, events[0]), events[1..])
  }

  /** Every event of the series is offered when it happens. */
  predicate Valid(s: Session, events: seq<Event>)
    decreases |events|
  {
    events == [] || (Offered(s, events[0]) && Valid(Apply(s, events[0]), events[1..]))
  }

  /** The workflow invariant: the processing state determines the shape of
      the step list and the pending step timers; at most one chat reply is
      pending, exactly while loading. */
  predicate Inv(s: Session) {
    && (match s.processing
        case Idle => s.timers == [] && Shape(s.steps, 0, false)
        case Processing => |s.timers| == 1 && Shape(s.steps, s.timers[0], true)
        case Completed => s.timers == [] && Shape(s.steps, StageCount, false)
        case Error => false)
    && s.replies <= 1
    && (s.chatLoading <==> s.replies == 1)
  }

  /** The result card always shows the same canned abstract; the card refers
      to it by this tag and `SummaryText` spells it out. */
  datatype Summary = CannedAbstract

  function SummaryText(x: Summary): string {
    match x
    case CannedAbstract =>
      "This study presents a novel approach to machine learning-based scientific document analysis, addressing the challenge of automated abstract generation while maintaining academic rigor and domain-specific terminology. We developed a transformer-based architecture that processes scientific papers through section-aware analysis, achieving 89% semantic coherence compared to human-generated abstracts. Our methodology combines deep learning techniques with domain knowledge extraction, resulting in abstracts that preserve critical technical details while maintaining readability. The system was evaluated on a corpus of 10,000 peer-reviewed papers across multiple disciplines, demonstrating superior performance in capturing key findings, methodology descriptions, and research contributions. These results suggest that automated abstract generation can significantly enhance research accessibility and literature review processes, with potential applications in academic publishing, research databases, and scientific information retrieval systems."
  }

  const SampleWordCount: nat := 218
  const SampleSources: seq<AbstractResult.SourceRef> := [
    AbstractResult.SourceRef("Methods \U{00A7}2.1", "We developed a transformer-based architecture that processes scientific papers through section-aware analysis...", "1"),
    AbstractResult.SourceRef("Results \U{00A7}3.4", "achieving 89% semantic coherence compared to human-generated abstracts...", "2"),
    AbstractResult.SourceRef("Discussion \U{00A7}4.2", "These results suggest that automated abstract generation can significantly enhance research accessibility...", "3")
  ]

  /** What the result card is given to display. */
  datatype ResultCard = ResultCard(summary: Summary, style: Style, wordCount: nat, mode: Mode, sources: seq<AbstractResult.SourceRef>)

  /** The result card is on screen exactly when processing is completed. */
  function ShownResult(s: Session): (r: Option<ResultCard>)
    ensures r.Some? <==> s.processing == ProcessingState.Completed
    ensures r.Some? ==> r.value.wordCount > 0 && |r.value.sources| == 3
  {
    if s.processing == ProcessingState.Completed
    then Some(ResultCard(CannedAbstract, s.style, SampleWordCount, s.mode, SampleSources))
    else None
  }
}

=== FILE: index_traces.dfy ===
/** Properties of the page session over series of events: what the workflow
    invariant guarantees, that it holds in every reachable state, and the
    end-to-end scenarios of generation and chat. */
module IndexTraces {
  import opened Basics
  import opened TextUtil
  import opened Steps
  import opened Index
  import ChatPanel
  import FileUpload
  import TextInput

  lemma InitInv()
    ensures Inv(Init)
  {
    ResetShape(InitialSteps, 0, false);
  }

  /** A generate request accepted by the page starts the first stage. */
  lemma GenerateKeepsInv(s: Session)
    requires Inv(s) && Offered(s, Generate)
    ensures Inv(Apply(s, Generate))
  {
    ActivateNext(s.steps, 0);
  }

  /** A step timer completes the running step and starts the next stage, or
      completes processing after the last one. */
  lemma TickKeepsInv(s: Session, t: nat)
    requires Inv(s) && Offered(s, Tick(t))
    ensures Inv(Apply(s, Tick(t)))
  {
    assert t == 0 && s.processing == Processing;
    FireRunning(s, s.timers[0]);
  }

  lemma FireRunning(s: Session, k: StageIndex)
    requires s.processing == Processing && s.timers == [k] && Shape(s.steps, k, true)
    requires s.replies <= 1 && (s.chatLoading <==> s.replies == 1)
    ensures Inv(FireTimer(s, 0))
  {
    assert s.timers[..0] + s.timers[1..] == [];
    var done := Complete(s.steps, Stages[k].step);
    CompleteRunning(s.steps, k);
    if k + 1 < StageCount {
      ActivateNext(done, k + 1);
    }
  }

  lemma RegenerateKeepsInv(s: Session)
    requires Inv(s) && Offered(s, Regenerate)
    ensures Inv(Apply(s, Regenerate))
  {
    ResetShape(s.steps, StageCount, false);
  }

  /** Every offered event preserves the invariant. */
  lemma InvPreserved(s: Session, e: Event)
    requires Inv(s) && Offered(s, e)
    ensures Inv(Apply(s, e))
  {
    match e
    case Generate => GenerateKeepsInv(s);
    case Tick(t) => TickKeepsInv(s, t);
    case Regenerate => RegenerateKeepsInv(s);
    case Send(_, _) =>
    case Reply(_) =>
    case ClearChat =>
    case _ => StoreKeepsInv(s, e);
  }

  /** A setter leaves the run and the chat alone, so it keeps the invariant
      whatever its value. */
  lemma StoreKeepsInv(s: Session, e: Event)
    requires Inv(s) && IsSetter(e)
    ensures Inv(Store(s, e))
  {
  }

  /** The invariant holds after every series of offered events. */
  lemma {:induction false} InvAlongTrace(s: Session, events: seq<Event>)
    requires Inv(s) && Valid(s, events)
    ensures Inv(Run(s, events))
    decreases |events|
  {
    if events != [] {
      InvPreserved(s, events[0]);
      InvAlongTrace(Apply(s, events[0]), events[1..]);
    }
  }

  /** In every state the page can reach: the error state is never entered, at
      most one step is running, steps complete in display order, and at most
      one chat reply is pending, exactly while loading. */
  lemma Reachable(events: seq<Event>)
    requires Valid(Init, events)
    ensures var s := Run(Init, events);
      && s.processing != Error
      && AtMostOneActive(s.steps)
      && CompletedInOrder(s.steps)
      && s.replies <= 1 && (s.chatLoading <==> s.replies == 1)
  {
    InitInv();
    InvAlongTrace(Init, events);
    var s := Run(Init, events);
    match s.processing
    case Idle => ShapeOrdered(s.steps, 0, false);
    case Processing => ShapeOrdered(s.steps, s.timers[0], true);
    case Completed => ShapeOrdered(s.steps, StageCount, false);
  }

  /** The number of completed steps of a state satisfying the invariant. */
  function DoneCount(s: Session): nat
    requires Inv(s)
  {
    match s.processing
    case Idle => 0
    case Processing => s.timers[0]
    case Completed => StageCount
  }

  /** How an offered event changes the steps: a step is completed only while
      it is running and after every earlier step is completed; a step starts
      running only after every earlier step is completed; so the steps run
      and complete one at a time in the order extract, analyze, summarize,
      finalize. */
  lemma StepsAdvanceInOrder(s: Session, e: Event)
    requires Inv(s) && Offered(s, e)
    ensures var r := Apply(s, e);
      forall j: StageIndex ::
        && (r.steps[j].status.Completed? && !s.steps[j].status.Completed? ==>
              s.steps[j].status == Active && forall i | 0 <= i < j :: s.steps[i].status.Completed?)
        && (r.steps[j].status == Active && s.steps[j].status != Active ==>
              forall i | 0 <= i < j :: r.steps[i].status.Completed?)
  {
    InvPreserved(s, e);
    DoneCountStep(s, e);
    var r := Apply(s, e);
    ShapeAdvance(s.steps, DoneCount(s), s.processing == Processing,
                 r.steps, DoneCount(r), r.processing == Processing);
  }

  /** An offered event completes at most one step, and only while one runs. */
  lemma DoneCountStep(s: Session, e: Event)
    requires Inv(s) && Offered(s, e)
    ensures Inv(Apply(s, e))
    ensures DoneCount(Apply(s, e)) <= DoneCount(s) + 1
    ensures DoneCount(Apply(s, e)) == DoneCount(s) + 1 ==> s.processing == Processing
  {
    InvPreserved(s, e);
    if e.Tick? {
      assert s.timers[..e.timer] + s.timers[e.timer + 1..] == [];
    }
  }

  /** Between two step lists of a run whose completed count grows by at most
      one, and only from a running step, steps are completed and started in
      display order. */
  lemma ShapeAdvance(before: seq<Step>, d: nat, a: bool, after: seq<Step>, d': nat, a': bool)
    requires Shape(before, d, a) && Shape(after, d', a')
    requires d' <= d + 1 && (d' == d + 1 ==> a)
    ensures forall j: StageIndex ::
        && (after[j].status.Completed? && !before[j].status.Completed? ==>
              before[j].status == Active && forall i | 0 <= i < j :: before[i].status.Completed?)
        && (after[j].status == Active && before[j].status != Active ==>
              forall i | 0 <= i < j :: after[i].status.Completed?)
  {
    forall j: StageIndex
      ensures after[j].status.Completed? && !before[j].status.Completed? ==>
              before[j].status == Active && forall i | 0 <= i < j :: before[i].status.Completed?
      ensures after[j].status == Active && before[j].status != Active ==>
              forall i | 0 <= i < j :: after[i].status.Completed?
    {
      assert before[j] == Expected(j, StatusAt(j, d, a));
      assert after[j] == Expected(j, StatusAt(j, d', a'));
      forall i | 0 <= i < j
        ensures before[i] == Expected(i, StatusAt(i, d, a))
        ensures after[i] == Expected(i, StatusAt(i, d', a'))
      {
      }
    }
  }

  /** Processing becomes completed only through the timer of the last stage,
      and at that moment all four steps are completed, each showing its stage
      message. */
  lemma CompletionOnlyAfterFinalize(s: Session, e: Event)
    requires Inv(s) && Offered(s, e)
    requires s.processing != ProcessingState.Completed
    requires Apply(s, e).processing == ProcessingState.Completed
    ensures e.Tick? && s.processing == Processing && s.steps[StageCount - 1].status == Active
    ensures forall j: StageIndex ::
      Apply(s, e).steps[j].status.Completed? && Apply(s, e).steps[j].message == Some(Stages[j].message)
  {
    InvPreserved(s, e);
    var r := Apply(s, e);
    assert Shape(r.steps, StageCount, false);
    assert forall j: StageIndex :: r.steps[j] == Expected(j, Status.Completed);
    assert s.timers[0] == StageCount - 1;
    assert s.steps[StageCount - 1] == Expected(StageCount - 1, StatusAt(StageCount - 1, s.timers[0], true));
  }

  /** The generate handler itself does not look at the processing state:
      called on a completed run (which the page never does, as the button is
      then hidden) it starts processing again without resetting the steps,
      so the later steps still show as completed while the first one runs. */
  lemma GenerateDoesNotCheckState(s: Session)
    requires Inv(s) && s.processing == ProcessingState.Completed && CanGenerate(s)
    ensures !Offered(s, Generate)
    ensures var r := Apply(s, Generate);
      && r.processing == Processing && |r.timers| == 1
      && r.steps[0].status == Active
      && forall j | 1 <= j < StageCount :: r.steps[j].status.Completed?
  {
    StagesMatchSteps();
    forall j: StageIndex ensures s.steps[j] == Expected(j, Status.Completed) {
      assert s.steps[j] == Expected(j, StatusAt(j, StageCount, false));
    }
  }

  /** `n` firings of the single pending step timer. */
  function Ticks(n: nat): (r: seq<Event>)
    ensures |r| == n && forall i | 0 <= i < n :: r[i] == Tick(0)
  {
    seq(n, _ => Tick(0))
  }

  /** One step timer firing in a run at stage `k`: the run moves on to the next
      stage, or completes after the last one. */
  lemma TickFrom(s: Session, k: StageIndex)
    requires Inv(s) && s.processing == Processing && s.timers == [k]
    ensures Offered(s, Tick(0)) && Inv(Apply(s, Tick(0)))
    ensures k + 1 < StageCount ==> Apply(s, Tick(0)).processing == Processing && Apply(s, Tick(0)).timers == [k + 1]
    ensures k + 1 == StageCount ==> Apply(s, Tick(0)).processing == ProcessingState.Completed
    ensures Apply(s, Tick(0)).chat == s.chat
  {
    InvPreserved(s, Tick(0));
    assert s.timers[..0] + s.timers[1..] == [];
  }

  /** A run at stage `k` is completed by exactly the remaining step timers,
      each of which is offered in turn. */
  lemma {:induction false} RemainingTicksComplete(s: Session, k: StageIndex)
    requires Inv(s) && s.processing == Processing && s.timers == [k]
    ensures Valid(s, Ticks(StageCount - k))
    ensures Inv(Run(s, Ticks(StageCount - k)))
    ensures Run(s, Ticks(StageCount - k)).processing == ProcessingState.Completed
    decreases StageCount - k
  {
    var ts := Ticks(StageCount - k);
    TickFrom(s, k);
    var s' := Apply(s, Tick(0));
    assert ts[1..] == Ticks(StageCount - k - 1);
    if k + 1 < StageCount {
      RemainingTicksComplete(s', k + 1);
    }
  }

  /** Running `e` and then `events` is running `[e] + events`. */
  lemma RunCons(s: Session, e: Event, events: seq<Event>)
    ensures Run(s, [e] + events) == Run(Apply(s, e), events)
    ensures Valid(s, [e] + events) <==> Offered(s, e) && Valid(Apply(s, e), events)
  {
    assert ([e] + events)[0] == e && ([e] + events)[1..] == events;
  }

  /** An offered generate request followed by the four step timers completes
      the run, with every step completed and showing its stage message. */
  lemma GenerateRunsToCompletion(s: Session)
    requires Inv(s) && Offered(s, Generate)
    ensures var events := [Generate] + Ticks(StageCount);
      && Valid(s, events)
      && Run(s, events).processing == ProcessingState.Completed
      && Shape(Run(s, events).steps, StageCount, false)
  {
    InvPreserved(s, Generate);
    RemainingTicksComplete(Apply(s, Generate), 0);
    RunCons(s, Generate, Ticks(StageCount));
  }

  /** End to end: after pasting text whose trimmed length exceeds the
      threshold, generating and letting the four step timers fire, the run is
      completed with every step completed and the result card on screen. */
  lemma GenerateFromPastedText(t: string)
    requires Utf16Length(Trim(t)) > MinTextLength
    ensures var events := [SetText(t)] + ([Generate] + Ticks(StageCount));
      && Valid(Init, events)
      && Run(Init, events).processing == ProcessingState.Completed
      && Shape(Run(Init, events).steps, StageCount, false)
      && ShownResult(Run(Init, events)).Some?
  {
    InitInv();
    var s1 := Apply(Init, SetText(t));
    InvPreserved(Init, SetText(t));
    GenerateRunsToCompletion(s1);
    RunCons(Init, SetText(t), [Generate] + Ticks(StageCount));
  }

  /** A forwarded chat message is appended as the user's turn and loading
      starts; no further message can be sent until the reply, which appends
      exactly one assistant turn with three citations and stops loading.
      Earlier messages stay as they were. */
  lemma SendThenReply(s: Session, c: string, id: string, replyId: string)
    requires Inv(s) && Offered(s, Send(c, id))
    ensures var s1 := Apply(s, Send(c, id)); var s2 := Apply(s1, Reply(replyId));
      && s1.chatLoading && Offered(s1, Reply(replyId)) && !s2.chatLoading
      && |s2.chat| == |s.chat| + 2 && s2.chat[..|s.chat|] == s.chat
      && s2.chat[|s.chat|] == ChatPanel.ChatMessage(id, ChatPanel.User, c, None)
      && s2.chat[|s.chat| + 1].role == ChatPanel.Assistant
      && |s2.chat[|s.chat| + 1].sources.value| == 3
  {
    var s1 := Apply(s, Send(c, id));
    var s2 := Apply(s1, Reply(replyId));
    assert s2.chat[..|s.chat|] == s1.chat[..|s1.chat|][..|s.chat|];
  }

  /** While a reply is pending no message can be sent. */
  lemma NoSendWhileLoading(s: Session, c: string, id: string)
    requires s.chatLoading
    ensures !Offered(s, Send(c, id))
  {
  }

  /** Clearing during a pending reply does not cancel it: the reply lands in
      the emptied log as its only message. */
  lemma ClearThenReply(s: Session, id: string)
    requires s.replies > 0
    ensures |Apply(Apply(s, ClearChat), Reply(id)).chat| == 1
    ensures Apply(Apply(s, ClearChat), Reply(id)).chat[0].role == ChatPanel.Assistant
  {
  }

  /** What the chat panel forwards is exactly what the page accepts as a send. */
  lemma SubmitFeedsSend(s: Session, input: string, id: string)
    requires ChatShown(s)
    requires ChatPanel.Submit(input, s.chatLoading).forwarded.Some?
    ensures Offered(s, Send(ChatPanel.Submit(input, s.chatLoading).forwarded.value, id))
  {
    var c := Trim(input);
    TrimUnchanged(c);
  }

  /** A drop onto the empty upload box selects the first accepted file; a drop
      with no accepted file leaves the selection empty. */
  lemma DropSelects(s: Session, files: seq<FileUpload.FileInfo>)
    requires s.file.None?
    ensures match FileUpload.Drop(files).select
      case Some(f) => Offered(s, SelectFile(f)) && Apply(s, SelectFile(f)).file == Some(f) && FileUpload.Accepted(f)
      case None => forall j | 0 <= j < |files| :: !FileUpload.Accepted(files[j])
  {
  }

  /** For text inside the Basic Multilingual Plane and no file, generation is
      possible exactly when the trimmed text has more than 100 characters:
      100 is not enough, 101 is. */
  lemma CanGenerateThreshold(s: Session)
    requires s.file.None? && InBmp(s.text)
    ensures CanGenerate(s) <==> |Trim(s.text)| > MinTextLength
  {
    TrimInBmp(s.text);
    Utf16LengthBmp(Trim(s.text));
  }

  /** "Clean formatting" hands the cleaned text to the text setter. Cleaned
      text is already trimmed, so without a file generation becomes possible
      exactly when the cleaned text itself is longer than 100 UTF-16 units,
      and nothing else on the page changes. */
  lemma CleanedTextThreshold(s: Session, t: string)
    ensures var r := Apply(s, SetText(TextInput.Clean(t)));
      && r == s.(text := TextInput.Clean(t))
      && (CanGenerate(r) <==> s.file.Some? || Utf16Length(TextInput.Clean(t)) > MinTextLength)
  {
    TrimUnchanged(TextInput.Clean(t));
  }
}

=== FILE: steps.dfy ===
/** The four-step processing pipeline shown while an abstract is generated:
    the step records, the fixed stage sequence that drives them, and the three
    list updates the page applies to them. */
module Steps {
  import opened Basics

  datatype Status = Pending | Active | Completed

  /** One row of the progress display. */
  datatype Step = Step(id: string, caption: string, status: Status, message: Option<string>)

  /** One entry of the processing sequence: the step it drives and the
      message shown once that step becomes active. (Its delay is not modelled.) */
  datatype Stage = Stage(step: string, message: string)

  const StageCount: nat := 4

  type StageIndex = k: nat | k < StageCount

  const Stages: seq<Stage> := [
    Stage("extract", "PDF parsed successfully"),
    Stage("analyze", "Detected: Introduction, Methods, Results, Discussion"),
    Stage("summarize", "Using section-aware summarization to preserve fidelity"),
    Stage("finalize", "Abstract generated successfully")
  ]

  const InitialSteps: seq<Step> := [
    Step("extract", "Extracting document", Pending, None),
    Step("analyze", "Analyzing sections", Pending, None),
    Step("summarize", "Summarizing", Pending, None),
    Step("finalize", "Finalizing abstract", Pending, None)
  ]

  /** The stage sequence drives the displayed steps one to one, in display
      order, and the step ids are distinct. */
  lemma StagesMatchSteps()
    ensures |Stages| == |InitialSteps| == StageCount
    ensures forall k | 0 <= k < StageCount :: Stages[k].step == InitialSteps[k].id
    ensures forall i, j | 0 <= i < j < StageCount :: InitialSteps[i].id != InitialSteps[j].id
  {
  }

  /** Marking step `id` active with `message`: the step with that id becomes
      active and shows the message; every other step is left as it was. */
  function Activate(steps: seq<Step>, id: string, message: string): (r: seq<Step>)
    ensures |r| == |steps|
    ensures forall i | 0 <= i < |steps| && steps[i].id == id ::
      r[i] == steps[i].(status := Active, message := Some(message))
    ensures forall i | 0 <= i < |steps| && steps[i].id != id :: r[i] == steps[i]
  {
    if steps == [] then []
    else
      var head := if steps[0].id == id then steps[0].(status := Active, message := Some(message)) else steps[0];
      [head] + Activate(steps[1..], id, message)
  }

  /** Marking step `id` completed: the step with that id becomes completed and
      keeps its message; every other step is left as it was. */
  function Complete(steps: seq<Step>, id: string): (r: seq<Step>)
    ensures |r| == |steps|
    ensures forall i | 0 <= i < |steps| && steps[i].id == id :: r[i] == steps[i].(status := Completed)
    ensures forall i | 0 <= i < |steps| && steps[i].id != id :: r[i] == steps[i]
  {
    if steps == [] then []
    else
      var head := if steps[0].id == id then steps[0].(status := Completed) else steps[0];
      [head] + Complete(steps[1..], id)
  }

  /** Resetting for a new run: every step is pending again with no message,
      keeping its id, its caption and its place. */
  function Reset(steps: seq<Step>): (r: seq<Step>)
    ensures |r| == |steps|
    ensures forall i | 0 <= i < |steps| :: r[i] == steps[i].(status := Pending, message := None)
  {
    if steps == [] then [] else [steps[0].(status := Pending, message := None)] + Reset(steps[1..])
  }

  /** The status step `j` has when `done` steps are completed and, if
      `active`, the next one is running. */
  function StatusAt(j: nat, done: nat, active: bool): Status {
    if j < done then Completed else if j == done && active then Active else Pending
  }

  /** Step `j` as displayed with status `st`: a step that has been reached
      shows its stage message, a pending one shows none. */
  function Expected(j: StageIndex, st: Status): Step {
    InitialSteps[j].(status := st, message := if st == Pending then None else Some(Stages[j].message))
  }

  /** The step list of a run in which the first `done` steps are completed
      and, if `active`, step `done` is running. */
  predicate Shape(steps: seq<Step>, done: nat, active: bool) {
    && |steps| == StageCount
    && done <= StageCount
    && (active ==> done < StageCount)
    && forall j: StageIndex :: steps[j] == Expected(j, StatusAt(j, done, active))
  }

  predicate AtMostOneActive(steps: seq<Step>) {
    forall i, j | 0 <= i < |steps| && 0 <= j < |steps| ::
      steps[i].status == Active && steps[j].status == Active ==> i == j
  }

  /** A completed step is preceded only by completed steps. */
  predicate CompletedInOrder(steps: seq<Step>) {
    forall i, j | 0 <= i < j < |steps| :: steps[j].status == Completed ==> steps[i].status == Completed
  }

  /** Every shape has at most one running step and completes steps in order. */
  lemma ShapeOrdered(steps: seq<Step>, done: nat, active: bool)
    requires Shape(steps, done, active)
    ensures AtMostOneActive(steps)
    ensures CompletedInOrder(steps)
  {
    forall i, j | 0 <= i < |steps| && 0 <= j < |steps| && steps[i].status == Active && steps[j].status == Active
      ensures i == j
    {
      assert steps[i] == Expected(i, StatusAt(i, done, active));
      assert steps[j] == Expected(j, StatusAt(j, done, active));
    }
    forall i, j | 0 <= i < j < |steps| && steps[j].status == Completed
      ensures steps[i].status == Completed
    {
      assert steps[i] == Expected(i, StatusAt(i, done, active));
      assert steps[j] == Expected(j, StatusAt(j, done, active));
    }
  }

  /** Activating the next stage starts that step and nothing else. */
  lemma ActivateNext(steps: seq<Step>, k: StageIndex)
    requires Shape(steps, k, false)
    ensures Shape(Activate(steps, Stages[k].step, Stages[k].message), k, true)
  {
    StagesMatchSteps();
    var r := Activate(steps, Stages[k].step, Stages[k].message);
    forall j: StageIndex ensures r[j] == Expected(j, StatusAt(j, k, true)) {
      assert steps[j] == Expected(j, StatusAt(j, k, false));
    }
  }

  /** Completing the running stage finishes that step and nothing else. */
  lemma CompleteRunning(steps: seq<Step>, k: StageIndex)
    requires Shape(steps, k, true)
    ensures Shape(Complete(steps, Stages[k].step), k + 1, false)
  {
    StagesMatchSteps();
    var r := Complete(steps, Stages[k].step);
    forall j: StageIndex ensures r[j] == Expected(j, StatusAt(j, k + 1, false)) {
      assert steps[j] == Expected(j, StatusAt(j, k, true));
    }
  }

  /** Resetting any run's step list gives back the initial step list. */
  lemma ResetShape(steps: seq<Step>, done: nat, active: bool)
    requires Shape(steps, done, active)
    ensures Reset(steps) == InitialSteps
    ensures Shape(InitialSteps, 0, false)
  {
    var r := Reset(steps);
    forall j: StageIndex ensures r[j] == InitialSteps[j] {
      assert steps[j] == Expected(j, StatusAt(j, done, active));
    }
  }
}

=== FILE: text_input.dfy ===
/** The "Clean formatting" transformation of the paste-text box: the four
    chained string operations applied to the pasted text, each modelled with
    the exact JavaScript regular-expression semantics it relies on. */
module TextInput {
  import opened Basics
  import opened TextUtil

  // The line-number rule: a global, multiline replace of "^ digits+ spaces*"
  // by nothing. With the m flag `^` matches at the start of the text and right
  // after any line terminator; a match is a maximal digit run followed by a
  // maximal (possibly empty) whitespace run, and scanning resumes after it.
  // `atLineStart` says whether the character before `s` in the original text
  // is a line terminator (or `s` starts the text).
  function StripLineNumbers(s: string, atLineStart: bool): (r: string)
    ensures |r| <= |s|
    decreases |s|
  {
    if s == [] then []
    else if atLineStart && IsDigit(s[0]) then
      var n := DigitRun(s);
      var m := n + SpaceRun(s[n..]);
      StripLineNumbers(s[m..], IsLineTerminator(s[m - 1]))
    else [s[0]] + StripLineNumbers(s[1..], IsLineTerminator(s[0]))
  }

  /** `replace(/\s+/g, ' ')`: every maximal whitespace run becomes one space. */
  function CollapseSpaces(s: string): (r: string)
    ensures |r| <= |s|
    ensures SingleSpaced(r)
    ensures s == [] <==> r == []
    ensures r != [] ==> (IsSpace(r[0]) <==> IsSpace(s[0]))
    ensures r != [] ==> (IsSpace(r[|r| - 1]) <==> IsSpace(s[|s| - 1]))
    decreases |s|
  {
    if s == [] then []
    else if IsSpace(s[0]) then
      var n := SpaceRun(s);
      assert s[n..] != [] ==> s[n..][0] == s[n];
      [' '] + CollapseSpaces(s[n..])
    else
      [s[0]] + CollapseSpaces(s[1..])
  }

  /** Index of the last line feed in `t`, if any. */
  function LastLineFeed(t: string): (r: Option<nat>)
    ensures r.Some? ==> r.value < |t| && t[r.value] == '\n'
    ensures r.Some? ==> forall i | r.value < i < |t| :: t[i] != '\n'
    ensures r.None? ==> forall i | 0 <= i < |t| :: t[i] != '\n'
  {
    if t == [] then None
    else if t[|t| - 1] == '\n' then Some(|t| - 1)
    else LastLineFeed(t[..|t| - 1])
  }

  // The blank-line rule: a global replace of "LF spaces* LF" by two line
  // feeds. At a line feed, the greedy spaces* takes the whole whitespace run
  // that follows and backs off to the last line feed inside it; the match
  // through that line feed becomes two line feeds. Without such a line feed
  // there is no match at this position.
  function SquashBlankLines(s: string): (r: string)
    ensures |r| <= |s|
    decreases |s|
  {
    if s == [] then []
    else if s[0] == '\n' then
      match LastLineFeed(s[1..][..SpaceRun(s[1..])])
      case Some(k) => "\n\n" + SquashBlankLines(s[k + 2..])
      case None => [s[0]] + SquashBlankLines(s[1..])
    else [s[0]] + SquashBlankLines(s[1..])
  }

  /** The text produced by "Clean formatting" for the pasted text `s`. */
  function Clean(s: string): (r: string)
    ensures NoOuterSpace(r)
    ensures |r| <= |s|
  {
    Trim(SquashBlankLines(CollapseSpaces(StripLineNumbers(s, true))))
  }

  /** Text without line feeds goes through the blank-line rule untouched. */
  lemma {:induction false} SquashWithoutLineFeeds(s: string)
    requires forall i | 0 <= i < |s| :: s[i] != '\n'
    ensures SquashBlankLines(s) == s
  {
    if s != [] {
      SquashWithoutLineFeeds(s[1..]);
    }
  }

  /** A single-spaced text contains no line terminator at all. */
  lemma SingleSpacedHasNoBreaks(c: string)
    requires SingleSpaced(c)
    ensures NoLineTerminator(c)
    ensures forall i | 0 <= i < |c| :: c[i] != '\n'
  {
  }

  /** The text after the two replacements is the collapsed text: with every
      whitespace run reduced to one space there is no line feed left for the
      blank-line rule to match. */
  lemma SquashedIsCollapsed(s: string)
    ensures SquashBlankLines(CollapseSpaces(StripLineNumbers(s, true)))
         == CollapseSpaces(StripLineNumbers(s, true))
  {
    var c := CollapseSpaces(StripLineNumbers(s, true));
    SingleSpacedHasNoBreaks(c);
    SquashWithoutLineFeeds(c);
  }

  /** The cleaned text has no whitespace at either end, every remaining
      whitespace character is a single space, and so it has no line breaks. */
  lemma CleanShape(s: string)
    ensures NoOuterSpace(Clean(s))
    ensures SingleSpaced(Clean(s))
    ensures NoLineTerminator(Clean(s))
  {
    var c := CollapseSpaces(StripLineNumbers(s, true));
    SquashedIsCollapsed(s);
    TrimSingleSpaced(c);
  }

  /** Trimming keeps a single-spaced text single-spaced. */
  lemma TrimSingleSpaced(c: string)
    requires SingleSpaced(c)
    ensures SingleSpaced(Trim(c)) && NoLineTerminator(Trim(c))
  {
    var r := Trim(c);
    SingleSpacedSlice(c, SpaceRun(c), SpaceRun(c) + |r|);
    SingleSpacedHasNoBreaks(r);
  }

  /** Blank pasted text (including the empty text) cleans to the empty text. */
  lemma CleanBlank(s: string)
    requires AllSpace(s)
    ensures Clean(s) == []
  {
    StripBlank(s, true);
    SquashedIsCollapsed(s);
    BlankCollapses(s);
  }

  /** A blank text collapses to at most one space. */
  lemma BlankCollapses(s: string)
    requires AllSpace(s)
    ensures AllSpace(CollapseSpaces(s))
  {
    if s != [] {
      assert SpaceRun(s) == |s| by { SpaceRunOf(s, []); assert s + [] == s; }
      assert s[|s|..] == [];
    }
  }

  /** Blank text contains no digits, so no line number is stripped. */
  lemma {:induction false} StripBlank(s: string, atLineStart: bool)
    requires AllSpace(s)
    ensures StripLineNumbers(s, atLineStart) == s
  {
    if s != [] {
      DigitIsNotSpace(s[0]);
      StripBlank(s[1..], IsLineTerminator(s[0]));
    }
  }

  /** Without line terminators only the very first character can start a
      line, so a text that does not open with a digit keeps all its characters. */
  lemma {:induction false} StripWithoutBreaks(s: string, atLineStart: bool)
    requires NoLineTerminator(s)
    requires atLineStart ==> s == [] || !IsDigit(s[0])
    ensures StripLineNumbers(s, atLineStart) == s
  {
    if s != [] {
      StripWithoutBreaks(s[1..], false);
    }
  }

  /** Collapsing a single-spaced text changes nothing. */
  lemma {:induction false} CollapseSingleSpaced(s: string)
    requires SingleSpaced(s)
    ensures CollapseSpaces(s) == s
  {
    if s != [] {
      SingleSpacedSlice(s, 1, |s|);
      if IsSpace(s[0]) {
        assert s == [s[0]] + s[1..];
        SpaceRunOf([s[0]], s[1..]);
      }
      CollapseSingleSpaced(s[1..]);
    }
  }

  /** A text that is already trimmed, single-spaced, free of line breaks and
      does not open with a digit is left exactly as it is. */
  lemma CleanUnchanged(s: string)
    requires NoOuterSpace(s)
    requires SingleSpaced(s)
    requires s == [] || !IsDigit(s[0])
    ensures Clean(s) == s
  {
    SingleSpacedHasNoBreaks(s);
    StripWithoutBreaks(s, true);
    CollapseSingleSpaced(s);
    SquashWithoutLineFeeds(s);
    TrimUnchanged(s);
  }

  /** A digit run at the start of the text is dropped together with all the
      whitespace after it, even when there is none. */
  lemma LeadingNumberRemoved(d: string, w: string, r: string)
    requires |d| > 0 && AllDigits(d)
    requires AllSpace(w)
    requires r == [] || (!IsDigit(r[0]) && !IsSpace(r[0]))
    ensures Clean(d + w + r) == Clean(r)
  {
    StripLeadingNumber(d, w, r);
  }

  lemma StripLeadingNumber(d: string, w: string, r: string)
    requires |d| > 0 && AllDigits(d)
    requires AllSpace(w)
    requires r == [] || (!IsDigit(r[0]) && !IsSpace(r[0]))
    ensures StripLineNumbers(d + w + r, true) == StripLineNumbers(r, true)
  {
    var s := d + w + r;
    var m := MatchLength(d, w, r);
    assert s[m..] == r;
    StripIgnoresFlag(r, IsLineTerminator(s[m - 1]));
  }

  /** The line-number match at the start of `d + w + r` is exactly `d + w`. */
  lemma MatchLength(d: string, w: string, r: string) returns (m: nat)
    requires |d| > 0 && AllDigits(d)
    requires AllSpace(w)
    requires r == [] || (!IsSpace(r[0]) && (w == [] ==> !IsDigit(r[0])))
    ensures m == |d| + |w|
    ensures var s := d + w + r; DigitRun(s) + SpaceRun(s[DigitRun(s)..]) == m
  {
    var s := d + w + r;
    assert s == d + (w + r);
    if w != [] {
      assert (w + r)[0] == w[0];
      DigitIsNotSpace(w[0]);
    } else {
      assert w + r == r;
    }
    DigitRunOf(d, w + r);
    assert s[|d|..] == w + r;
    SpaceRunOf(w, r);
    m := |d| + |w|;
  }

  /** Whether a text that does not open with a digit starts a line makes no
      difference to the line-number rule. */
  lemma StripIgnoresFlag(r: string, flag: bool)
    requires r == [] || !IsDigit(r[0])
    ensures StripLineNumbers(r, flag) == StripLineNumbers(r, true)
  {
  }

  /** A line number in front of a lower-case word leaves just the word. */
  lemma NumberBeforeWord(d: string, w: string, r: string)
    requires |d| > 0 && AllDigits(d)
    requires AllSpace(w)
    requires r != [] && forall i | 0 <= i < |r| :: 'a' <= r[i] <= 'z'
    ensures Clean(d + w + r) == r
  {
    PlainWord(r);
    LeadingNumberRemoved(d, w, r);
  }

  /** "12abc" cleans to "abc": the digits go even with no space after them. */
  lemma NumberWithoutGap()
    ensures Clean("12abc") == "abc"
  {
    assert "12abc" == "12" + [] + "abc";
    NumberBeforeWord("12", [], "abc");
  }

  /** Cleaning is not idempotent: a number that becomes the first word only
      after trimming is stripped by a second cleaning. */
  lemma CleanNotIdempotent()
    ensures Clean(" 5 x") == "5 x"
    ensures Clean(Clean(" 5 x")) == "x"
  {
    CleanLeadingSpaceFive();
    CleanFive();
  }

  lemma CleanLeadingSpaceFive()
    ensures Clean(" 5 x") == "5 x"
  {
    assert " 5 x" == " " + "5 x";
    CleanSpaceThenText("5 x");
  }

  lemma CleanFive()
    ensures Clean("5 x") == "x"
  {
    assert "5 x" == "5" + " " + "x";
    NumberBeforeWord("5", " ", "x");
  }

  /** One space in front of a trimmed, single-spaced text is simply trimmed
      away when nothing else needs cleaning. */
  lemma CleanSpaceThenText(t: string)
    requires NoOuterSpace(t) && SingleSpaced(" " + t)
    ensures Clean(" " + t) == t
  {
    var w := " ";
    var s := w + t;
    StripWithoutBreaksAll(s);
    CollapseSingleSpaced(s);
    SingleSpacedHasNoBreaks(s);
    SquashWithoutLineFeeds(s);
    TrimLeadingSpace(w, t);
  }

  lemma StripWithoutBreaksAll(s: string)
    requires SingleSpaced(s) && (s == [] || !IsDigit(s[0]))
    ensures StripLineNumbers(s, true) == s
  {
    SingleSpacedHasNoBreaks(s);
    StripWithoutBreaks(s, true);
  }

  /** A word of letters is already clean. */
  lemma PlainWord(s: string)
    requires forall i | 0 <= i < |s| :: 'a' <= s[i] <= 'z'
    ensures Clean(s) == s
  {
    CleanUnchanged(s);
  }

  /** The non-whitespace characters of `s`, in order. */
  function Visible(s: string): string {
    if s == [] then []
    else if IsSpace(s[0]) then Visible(s[1..])
    else [s[0]] + Visible(s[1..])
  }

  lemma {:induction false} VisibleSkipsBlank(s: string, n: nat)
    requires n <= |s| && AllSpace(s[..n])
    ensures Visible(s) == Visible(s[n..])
  {
    if n > 0 {
      assert s[..n][0] == s[0];
      assert s[1..][..n - 1] == s[..n][1..];
      VisibleSkipsBlank(s[1..], n - 1);
      assert s[1..][n - 1..] == s[n..];
    }
  }

  /** Collapsing whitespace only rewrites whitespace: the visible characters
      and their order are kept. */
  lemma {:induction false} CollapseKeepsVisible(s: string)
    ensures Visible(CollapseSpaces(s)) == Visible(s)
    decreases |s|
  {
    if s != [] {
      if IsSpace(s[0]) {
        var n := SpaceRun(s);
        VisibleSkipsBlank(s, n);
        CollapseKeepsVisible(s[n..]);
        assert ([' '] + CollapseSpaces(s[n..]))[1..] == CollapseSpaces(s[n..]);
      } else {
        CollapseKeepsVisible(s[1..]);
        assert ([s[0]] + CollapseSpaces(s[1..]))[1..] == CollapseSpaces(s[1..]);
      }
    }
  }

  /** The line-number rule applies at the start of every line: after a line
      terminator, a digit run and the whitespace after it are removed. */
  lemma StripAfterLineBreak(c: char, d: string, w: string, r: string, flag: bool)
    requires IsLineTerminator(c)
    requires |d| > 0 && AllDigits(d)
    requires AllSpace(w)
    requires r == [] || (!IsDigit(r[0]) && !IsSpace(r[0]))
    ensures StripLineNumbers([c] + d + w + r, flag) == [c] + StripLineNumbers(r, true)
  {
    var s := [c] + d + w + r;
    assert s[1..] == d + w + r;
    StripLeadingNumber(d, w, r);
  }

  /** After a match, scanning resumes right behind the whitespace run. When
      that run ends in a line terminator, the next line starts there and may
      open with another number, as in "1\n2 x", which becomes "x". */
  lemma StripNumberedLine(d: string, w: string, r: string)
    requires |d| > 0 && AllDigits(d) && AllSpace(w)
    requires r == [] || (!IsSpace(r[0]) && (w == [] ==> !IsDigit(r[0])))
    ensures StripLineNumbers(d + w + r, true)
         == StripLineNumbers(r, w != [] && IsLineTerminator(w[|w| - 1]))
  {
    var s := d + w + r;
    var m := MatchLength(d, w, r);
    MatchEnd(d, w, r);
    StripMatch(s, DigitRun(s), m);
  }

  /** One step of the rule at a line start that opens with a digit. */
  lemma StripMatch(s: string, n: nat, m: nat)
    requires s != [] && IsDigit(s[0])
    requires n == DigitRun(s) && m == n + SpaceRun(s[n..]) && 0 < m <= |s|
    ensures StripLineNumbers(s, true) == StripLineNumbers(s[m..], IsLineTerminator(s[m - 1]))
  {
  }

  lemma MatchEnd(d: string, w: string, r: string)
    requires d != []
    ensures (d + w + r)[0] == d[0]
    ensures (d + w + r)[|d| + |w|..] == r
    ensures (d + w + r)[|d| + |w| - 1] == (if w != [] then w[|w| - 1] else d[|d| - 1])
  {
  }

  /** A character that does not start a line number is kept. */
  lemma StripKeeps(s: string, flag: bool)
    requires s != [] && !(flag && IsDigit(s[0]))
    ensures StripLineNumbers(s, flag) == [s[0]] + StripLineNumbers(s[1..], IsLineTerminator(s[0]))
  {
  }

  /** Text ending in a non-whitespace character and what follows it collapse
      separately: no whitespace run crosses the boundary. */
  lemma {:induction false} CollapseAppend(a: string, t: string)
    requires a == [] || !IsSpace(a[|a| - 1])
    ensures CollapseSpaces(a + t) == CollapseSpaces(a) + CollapseSpaces(t)
    decreases |a|
  {
    if a == [] {
      assert a + t == t;
    } else {
      var k := LeadingSplit(a, t);
      CollapseAppend(a[k..], t);
      ConcatAfterHead(CollapseSpaces(a + t), CollapseSpaces(a), CollapseSpaces(a)[..1],
                      CollapseSpaces(a[k..] + t), CollapseSpaces(a[k..]), CollapseSpaces(t));
    }
  }

  /** Regrouping a shared head in front of two concatenations. */
  lemma ConcatAfterHead(whole: string, left: string, head: string, tail: string, x: string, y: string)
    requires whole == head + tail && left == head + x && tail == x + y
    ensures whole == left + y
  {
  }

  /** The first piece of `a`, a whitespace run or one other character, is
      collapsed the same way whatever follows `a`. */
  lemma LeadingSplit(a: string, t: string) returns (k: nat)
    requires a != [] && !IsSpace(a[|a| - 1])
    ensures 0 < k <= |a|
    ensures a[k..] == [] || !IsSpace(a[k..][|a[k..]| - 1])
    ensures |CollapseSpaces(a)| > 0
    ensures CollapseSpaces(a) == CollapseSpaces(a)[..1] + CollapseSpaces(a[k..])
    ensures CollapseSpaces(a + t) == CollapseSpaces(a)[..1] + CollapseSpaces(a[k..] + t)
  {
    if IsSpace(a[0]) {
      k := LeadingRunSplit(a, t);
    } else {
      k := 1;
      assert (a + t)[1..] == a[1..] + t;
      CollapseCharStep(a);
      CollapseCharStep(a + t);
    }
  }

  /** The leading whitespace run of `a + t` is that of `a` when `a` ends in
      a non-whitespace character. */
  lemma LeadingRunSplit(a: string, t: string) returns (k: nat)
    requires a != [] && IsSpace(a[0]) && !IsSpace(a[|a| - 1])
    ensures 0 < k < |a| && !IsSpace(a[|a| - 1])
    ensures CollapseSpaces(a) == [' '] + CollapseSpaces(a[k..])
    ensures CollapseSpaces(a + t) == [' '] + CollapseSpaces(a[k..] + t)
  {
    k := SpaceRun(a);
    assert a[..k] + (a[k..] + t) == a + t;
    SpaceRunOf(a[..k], a[k..] + t);
    assert (a + t)[k..] == a[k..] + t;
    CollapseSpaceStep(a);
    CollapseSpaceStep(a + t);
  }

  lemma CollapseSpaceStep(s: string)
    requires s != [] && IsSpace(s[0])
    ensures CollapseSpaces(s) == [' '] + CollapseSpaces(s[SpaceRun(s)..])
  {
  }

  lemma CollapseCharStep(s: string)
    requires s != [] && !IsSpace(s[0])
    ensures CollapseSpaces(s) == [s[0]] + CollapseSpaces(s[1..])
  {
  }

  /** A whitespace run followed by a non-whitespace character (or the end)
      becomes exactly one space. */
  lemma CollapseRun(w: string, b: string)
    requires |w| > 0 && AllSpace(w)
    requires b == [] || !IsSpace(b[0])
    ensures CollapseSpaces(w + b) == " " + CollapseSpaces(b)
  {
    SpaceRunOf(w, b);
    assert (w + b)[|w|..] == b;
  }

  /** Collapsing keeps words apart: a whitespace run between two words
      becomes exactly one space, and the words on either side are collapsed
      independently. */
  lemma CollapseBetweenWords(a: string, w: string, b: string)
    requires a != [] && !IsSpace(a[|a| - 1])
    requires |w| > 0 && AllSpace(w)
    requires b == [] || !IsSpace(b[0])
    ensures CollapseSpaces(a + w + b) == CollapseSpaces(a) + " " + CollapseSpaces(b)
  {
    assert a + w + b == a + (w + b);
    CollapseAppend(a, w + b);
    CollapseRun(w, b);
    SpaceBetween(CollapseSpaces(a + (w + b)), CollapseSpaces(a), CollapseSpaces(w + b), CollapseSpaces(b));
  }

  /** Regrouping a space between two parts. */
  lemma SpaceBetween(whole: string, x: string, mid: string, y: string)
    requires whole == x + mid && mid == " " + y
    ensures whole == x + " " + y
  {
  }
}

=== FILE: text_util.dfy ===
/** JavaScript string primitives the components rely on: the `\s` / `trim()`
    whitespace class, the `\d` digit class, line terminators as seen by a
    multiline `^`, and `String.length`, which counts UTF-16 code units. */
module TextUtil {

  /** ECMAScript LineTerminator: LF, CR, LINE SEPARATOR, PARAGRAPH SEPARATOR. */
  predicate IsLineTerminator(c: char) {
    c == '\n' || c == '\r' || c == '\U{2028}' || c == '\U{2029}'
  }

  /** ECMAScript WhiteSpace or LineTerminator: the characters matched by
      `\s` and removed by `trim()`. */
  predicate IsSpace(c: char) {
    || IsLineTerminator(c)
    || c == '\t' || c == '\U{000B}' || c == '\U{000C}' || c == ' '
    || c == '\U{00A0}' || c == '\U{1680}' || ('\U{2000}' <= c <= '\U{200A}')
    || c == '\U{202F}' || c == '\U{205F}' || c == '\U{3000}' || c == '\U{FEFF}'
  }

  /** The `\d` class: ASCII digits only. */
  predicate IsDigit(c: char) {
    '0' <= c <= '9'
  }

  lemma DigitIsNotSpace(c: char)
    ensures IsDigit(c) ==> !IsSpace(c)
  {
  }

  predicate AllSpace(s: string) {
    forall i | 0 <= i < |s| :: IsSpace(s[i])
  }

  predicate AllDigits(s: string) {
    forall i | 0 <= i < |s| :: IsDigit(s[i])
  }

  /** Neither end of `s` is whitespace. */
  predicate NoOuterSpace(s: string) {
    s == [] || (!IsSpace(s[0]) && !IsSpace(s[|s| - 1]))
  }

  /** Every whitespace character is a plain space, and no two whitespace
      characters are adjacent. */
  predicate SingleSpaced(s: string) {
    && (forall i | 0 <= i < |s| :: IsSpace(s[i]) ==> s[i] == ' ')
    && (forall i | 1 <= i < |s| :: !IsSpace(s[i - 1]) || !IsSpace(s[i]))
  }

  predicate NoLineTerminator(s: string) {
    forall i | 0 <= i < |s| :: !IsLineTerminator(s[i])
  }

  /** Length of the longest all-whitespace prefix of `s`. */
  function SpaceRun(s: string): (n: nat)
    ensures n <= |s|
    ensures AllSpace(s[..n])
    ensures n < |s| ==> !IsSpace(s[n])
  {
    if s != [] && IsSpace(s[0]) then 1 + SpaceRun(s[1..]) else 0
  }

  /** Length of the longest all-digit prefix of `s`. */
  function DigitRun(s: string): (n: nat)
    ensures n <= |s|
    ensures AllDigits(s[..n])
    ensures n < |s| ==> !IsDigit(s[n])
  {
    if s != [] && IsDigit(s[0]) then 1 + DigitRun(s[1..]) else 0
  }

  /** Length of the longest all-whitespace suffix of `s`. */
  function TrailRun(s: string): (n: nat)
    ensures n <= |s|
    ensures AllSpace(s[|s| - n..])
    ensures n < |s| ==> !IsSpace(s[|s| - n - 1])
  {
    if s != [] && IsSpace(s[|s| - 1]) then 1 + TrailRun(s[..|s| - 1]) else 0
  }

  /** A maximal whitespace prefix is determined by where it stops. */
  lemma {:induction false} SpaceRunOf(w: string, t: string)
    requires AllSpace(w)
    requires t == [] || !IsSpace(t[0])
    ensures SpaceRun(w + t) == |w|
  {
    if w != [] {
      assert (w + t)[1..] == w[1..] + t;
      SpaceRunOf(w[1..], t);
    }
  }

  /** A maximal digit prefix is determined by where it stops. */
  lemma {:induction false} DigitRunOf(d: string, t: string)
    requires AllDigits(d)
    requires t == [] || !IsDigit(t[0])
    ensures DigitRun(d + t) == |d|
  {
    if d != [] {
      assert (d + t)[1..] == d[1..] + t;
      DigitRunOf(d[1..], t);
    }
  }

  /** `String.prototype.trim`: the result is the slice of `s` left after
      removing every leading and every trailing whitespace character. */
  function Trim(s: string): (r: string)
    ensures NoOuterSpace(r)
    ensures |r| <= |s|
    ensures SpaceRun(s) + |r| <= |s|
    ensures r == s[SpaceRun(s)..SpaceRun(s) + |r|]
    ensures AllSpace(s[SpaceRun(s) + |r|..])
    ensures r == [] <==> AllSpace(s)
  {
    var a := SpaceRun(s);
    var t := s[a..];
    var n := TrailRun(t);
    TrimFacts(s, a, t, n, t[..|t| - n]);
    t[..|t| - n]
  }

  lemma TrimFacts(s: string, a: nat, t: string, n: nat, r: string)
    requires a == SpaceRun(s) && t == s[a..] && n == TrailRun(t) && r == t[..|t| - n]
    ensures AllSpace(s[a + |r|..])
    ensures r == [] <==> AllSpace(s)
    ensures NoOuterSpace(r)
  {
    assert |r| == |t| - n;
    TrimTail(s, a, t, n);
    TrimEmpty(s, a, t, n);
    if a < |s| {
      TrimInner(s, a, t, n);
    }
  }

  /** What trimming drops at the end is whitespace. */
  lemma TrimTail(s: string, a: nat, t: string, n: nat)
    requires a == SpaceRun(s) && t == s[a..] && n == TrailRun(t)
    ensures AllSpace(s[a + (|t| - n)..])
  {
    assert s[a + (|t| - n)..] == t[|t| - n..];
  }

  /** Trimming leaves nothing exactly when the text is all whitespace. */
  lemma TrimEmpty(s: string, a: nat, t: string, n: nat)
    requires a == SpaceRun(s) && t == s[a..] && n == TrailRun(t)
    ensures t[..|t| - n] == [] <==> AllSpace(s)
  {
    if a < |s| {
      TrimInner(s, a, t, n);
      assert |t[..|t| - n]| > 0;
    } else {
      assert s[..a] == s && t == [];
    }
  }

  lemma TrimInner(s: string, a: nat, t: string, n: nat)
    requires a == SpaceRun(s) < |s| && t == s[a..] && n == TrailRun(t)
    ensures n < |t| && !AllSpace(s)
    ensures NoOuterSpace(t[..|t| - n])
  {
    assert t != [] && t[0] == s[a];
    NotAllSpace(s, a);
    TrailInner(t, n);
  }

  lemma NotAllSpace(s: string, a: nat)
    requires a < |s| && !IsSpace(s[a])
    ensures !AllSpace(s)
  {
  }

  /** A string opening with a non-whitespace character keeps some of itself
      when its trailing whitespace is cut off. */
  lemma TrailInner(t: string, n: nat)
    requires t != [] && !IsSpace(t[0]) && n == TrailRun(t)
    ensures n < |t| && NoOuterSpace(t[..|t| - n])
  {
    SpaceSuffix(t, |t| - n);
    TrimInnerEnds(t, n);
  }

  lemma SpaceSuffix(t: string, k: nat)
    requires k <= |t| && AllSpace(t[k..])
    ensures forall i | k <= i < |t| :: IsSpace(t[i])
  {
    forall i | k <= i < |t| ensures IsSpace(t[i]) {
      assert t[k..][i - k] == t[i];
    }
  }

  lemma TrimInnerEnds(t: string, n: nat)
    requires n < |t| && !IsSpace(t[0]) && !IsSpace(t[|t| - n - 1])
    ensures NoOuterSpace(t[..|t| - n])
  {
  }

  /** Trimming a string with no whitespace at either end changes nothing. */
  lemma TrimUnchanged(s: string)
    requires NoOuterSpace(s)
    ensures Trim(s) == s
  {
    if s != [] {
      assert SpaceRun(s) == 0;
    }
  }

  /** Whitespace in front of an already trimmed string is all that trimming
      removes. */
  lemma TrimLeadingSpace(w: string, t: string)
    requires AllSpace(w)
    requires NoOuterSpace(t)
    ensures Trim(w + t) == t
  {
    SpaceRunOf(w, t);
    var r := Trim(w + t);
    assert (w + t)[|w|..] == t;
  }

  /** A slice of a single-spaced string is single-spaced. */
  lemma SingleSpacedSlice(s: string, i: nat, j: nat)
    requires i <= j <= |s|
    requires SingleSpaced(s)
    ensures SingleSpaced(s[i..j])
  {
    var t := s[i..j];
    forall k | 1 <= k < |t| ensures !IsSpace(t[k - 1]) || !IsSpace(t[k]) {
      assert t[k - 1] == s[i + k - 1] && t[k] == s[i + k];
    }
  }

  /** Positions of the characters outside the Basic Multilingual Plane,
      each of which JavaScript stores as a surrogate pair. */
  function Astral(s: string): set<nat> {
    set i: nat | i < |s| && s[i] as int > 0xFFFF
  }

  /** The number of UTF-16 code units of `s`, i.e. JavaScript's `length`:
      one per character, plus one more for each character outside the Basic
      Multilingual Plane. */
  function Utf16Length(s: string): (n: nat)
    ensures n == |s| + |Astral(s)|
    ensures |s| <= n <= 2 * |s|
    decreases |s|
  {
    if s == [] then 0
    else
      var k := |s| - 1;
      AstralStep(s);
      Utf16Length(s[..k]) + (if s[k] as int > 0xFFFF then 2 else 1)
  }

  /** Extending a text by one character adds its position to the astral
      positions exactly when it is outside the Basic Multilingual Plane. */
  lemma AstralStep(s: string)
    requires s != []
    ensures |Astral(s)| == |Astral(s[..|s| - 1])| + (if s[|s| - 1] as int > 0xFFFF then 1 else 0)
  {
    var k := |s| - 1;
    var p := s[..k];
    assert k !in Astral(p);
    if s[k] as int > 0xFFFF {
      assert Astral(s) == Astral(p) + {k};
    } else {
      assert Astral(s) == Astral(p);
    }
  }

  predicate InBmp(s: string) {
    forall i | 0 <= i < |s| :: s[i] as int <= 0xFFFF
  }

  /** Trimming keeps text inside the Basic Multilingual Plane. */
  lemma TrimInBmp(s: string)
    requires InBmp(s)
    ensures InBmp(Trim(s))
  {
    var t := Trim(s);
    var a := SpaceRun(s);
    forall i | 0 <= i < |t| ensures t[i] as int <= 0xFFFF {
      assert t[i] == s[a + i];
    }
  }

  /** For text inside the Basic Multilingual Plane, JavaScript's length is
      the number of characters; otherwise it is strictly larger. */
  lemma Utf16LengthBmp(s: string)
    ensures InBmp(s) <==> Utf16Length(s) == |s|
  {
    if InBmp(s) {
      assert Astral(s) == {};
    } else {
      var i :| 0 <= i < |s| && s[i] as int > 0xFFFF;
      assert i in Astral(s);
    }
  }
}
